=== FILE: README.md ===
# fmcsa-extractor: a verified model of the extraction core

The scraper builds a carrier-snapshot URL for each MC identifier. It fetches the page with a
retrying fetch and reads two fields out of the raw markup: the carrier's MC number and the
first thing that looks like a phone number. This project models that deterministic core of
`extractor.js` in Dafny and proves what the code promises about it.

- `SnapshotUrl` (`snapshot_url.dfy`) models `mcToSnapshotUrl`. It strips every white-space
  character from the identifier, percent-encodes the rest and appends it to the fixed query prefix.
- `UriComponent` (`uri_component.dfy`) models `encodeURIComponent`.
  - Characters are encoded through full UTF-8.
  - The matching decoder is the partner: the round trip is proved.
- `HtmlText` (`html_text.dfy`) models `htmlToText`.
  1. Tags become spaces.
  2. The four entities are decoded one after the other.
  3. White-space runs collapse to one space.
  4. The ends are trimmed.
- `Phone` (`phone.dfy`) models `extractPhoneAnywhere`, a hand-written scanner for the
  leftmost `\(?\d{3}\)?[\s\-.]*\d{3}[\s\-.]*\d{4}`.
- `McNumber` (`mc_number.dfy`) models the MC-number selection of `extractOne`.
  - There are four case-insensitive patterns, and the first pattern that matches anywhere wins.
  - A loose-pattern fallback follows.
  - The module also holds a labelled-first ranking. The patterns at extractor.js:96-98 run from most to least specific, and the fallback at extractor.js:101 repeats the loose pattern, which together suggest that ranking (see Findings).
- `FetchRetry` (`fetch_retry.dfy`) models the attempt/backoff loop of `fetchRetry`. The network is
  a parameter, `net(i)`, giving the outcome of attempt `i`.
- `JsText` holds JavaScript's `\s`, `\d`, ASCII case folding and the white-space removal of `.replace(/\s+/g, '')`. `Wrappers` holds `Option` and `Result`.

Regular expressions are modelled by scanners over `seq<char>`.
- Each scanner tries one start position, and a search takes the leftmost position that matches.
- Each scanner is tied to an independent statement of what the regex allows at a position
  (`Phone.Parses`, `McNumber.Admits`), in both directions:
  - every match it reports is allowed (`Phone.MatchAt`, `McNumber.MatchAtSound`);
  - wherever the regex allows a match, the scanner reports one there, with the greedy extent (`Phone.MatchAtComplete`, `McNumber.MatchAtComplete`, `McNumber.LooseGreedy`).

## Model

| member | source | states |
|---|---|---|
| JsText.WsAscii | extractor.js:36 | Among ASCII characters `\s` is exactly the space and tab to carriage return; digits and letters are never white space |
| SnapshotUrl.McToSnapshotUrl | extractor.js:35-38 | The URL is the fixed prefix followed by a URL-safe, space-free query value that decodes back to the identifier with all white space removed; a missing identifier gives the bare prefix |
| JsText.StripWs | extractor.js:36 | The result has no white space, and a string without white space is returned unchanged |
| JsText.StripWsFrom | extractor.js:36 | Every character left was in the input and is not white space |
| JsText.StripWsAppend | extractor.js:36 | Removing white space acts character by character, so it distributes over concatenation and keeps the other characters in order |
| SnapshotUrl.PlainIdentifierUrl | extractor.js:35-37 | An identifier whose other characters are all unreserved, such as `MC 123456`, appears in the URL verbatim without its white space: the URL is the prefix followed by the stripped identifier |
| SnapshotUrl.UrlIgnoresWhitespace | extractor.js:36-37 | Stripping white space from the identifier beforehand does not change the URL |
| SnapshotUrl.UrlDeterminesIdentifier | extractor.js:36-37 | Two identifiers give the same URL if and only if they agree once white space is dropped |
| UriComponent.Encode | extractor.js:37 | The encoding uses only unreserved characters and `%`, and is one to twelve characters per input character; `EncodeUnreserved`, `EncodeAppend`, `EncodeUpper` and `EscapeLength` fix how each character is spelled, and `DecodeEncode` that it is recovered |
| UriComponent.EncodeUnreserved | extractor.js:37 | A string made only of unreserved characters is its own encoding |
| UriComponent.EncodeAppend | extractor.js:37 | Each character is encoded on its own: the encoding of a concatenation is the concatenation of the encodings, so an unreserved character inside a mixed identifier is kept as it is (`a/` becomes `a` followed by the escape of `/`) |
| UriComponent.EncodeUpper | extractor.js:37 | Every `%` in an encoding is followed by two upper-case hexadecimal digits, so `/` is written `%2F` and never `%2f` |
| UriComponent.EscapeLength | extractor.js:37 | An escaped character takes its shortest UTF-8 form: 3, 6, 9 or 12 characters for code points below 0x80, below 0x800, below 0x10000 and above, so no overlong form appears |
| UriComponent.EncodeHasNoWs | extractor.js:37 | An encoded value contains no white-space character |
| UriComponent.DecodeEncode | extractor.js:37 | Decoding the encoding gives back the original string: the percent-encoding loses nothing |
| UriComponent.EncodeInjective | extractor.js:37 | Two strings have the same encoding if and only if they are equal |
| HtmlText.StripTags | extractor.js:76 | After tags become spaces no `<` is followed by a `>`, every character kept is a space or comes from the input, and text without `<` is untouched |
| HtmlText.TagBecomesSpace | extractor.js:76 | A tag `<...>` becomes exactly one space; the tag-free text in front of it is kept as it is, and the rest is stripped in turn |
| HtmlText.TagFreePrefix | extractor.js:76 | Text without `<` in front of anything passes through tag stripping unchanged and in order |
| HtmlText.UnclosedKept | extractor.js:76 | A `<` with no `>` after it opens no tag: text without `>` comes out of tag stripping unchanged, so `x<y` stays `x<y` |
| HtmlText.ReplaceAll | extractor.js:76 | A replacement no longer than the pattern never lengthens the text |
| HtmlText.ReplaceOccurrence | extractor.js:76 | The first occurrence of the pattern (no occurrence starts before it) is replaced, the text in front of it is copied, and the search resumes after it; a stray `&` in front, as in `AT&T &lt;`, does not matter |
| HtmlText.LooseAmpThenLt | extractor.js:76 | The `&lt;` step turns `AT&T &lt;` into `AT&T <` |
| HtmlText.ReplaceLeavesNone | extractor.js:76 | A global literal replacement whose replacement text shares no character with the pattern leaves no occurrence of the pattern |
| HtmlText.ReplaceWithoutOccurrence | extractor.js:76 | A replacement changes nothing when the pattern does not occur |
| HtmlText.DecodeEntities | extractor.js:76 | Decoding the four entities never lengthens the text |
| HtmlText.NoEntity | extractor.js:76 | Text without `&` is left unchanged by the four entity replacements |
| HtmlText.DecodedHasNoGt | extractor.js:76 | After the four entity replacements no `&gt;` remains |
| HtmlText.CollapseWs | extractor.js:76 | After collapsing, no two white-space characters are adjacent and every white-space character left is a plain space |
| HtmlText.RunBecomesSpace | extractor.js:76 | A run of white space between text without white space and a non-space character becomes exactly one space |
| HtmlText.CollapseKeepsText | extractor.js:76 | Collapsing white space changes nothing but white space |
| HtmlText.TrimStart | extractor.js:76 | `.trim()` at the front: the result is a suffix of the input, everything dropped is white space, and the result does not start with white space |
| HtmlText.TrimEnd | extractor.js:76 | `.trim()` at the end: the result is a prefix of the input, everything dropped is white space, and the result does not end with white space |
| HtmlText.TrimKeepsText | extractor.js:76 | Trimming removes nothing but white space |
| HtmlText.HtmlToText | extractor.js:74-77 | Empty input gives `''`; any output is trimmed, has no two adjacent white-space characters and no white space other than a plain space |
| HtmlText.HtmlToTextKeepsText | extractor.js:74-77 | White space aside, the output is exactly the tag-stripped, entity-decoded input |
| HtmlText.WordsSeparated | extractor.js:74-77 | Two words (no white space, `<` or `&`) separated by a tag or by any run of white space come out as the two words with exactly one space between them |
| HtmlText.AmpThenLt | extractor.js:76 | Entities decode in sequence, so `&amp;lt;` becomes `<` |
| HtmlText.EscapedTagSurvives | extractor.js:76 | Tags are stripped before decoding, so `&lt;b&gt;` becomes the text `<b>` |
| Phone.MatchAt | extractor.js:81 | A match found at a position parses as the phone pattern with its parts where the scanner reports them |
| Phone.MatchAtComplete | extractor.js:81 | Any way the pattern can parse at a position is the one the scanner finds |
| Phone.FindFrom | extractor.js:81 | Returns the leftmost position with a parse and nothing when no position parses |
| Phone.ExtractPhoneAnywhere | extractor.js:80-83 | `''` if and only if no position matches; otherwise the matched slice at the leftmost matching position, with exactly ten digits and a digit at its end |
| Phone.MatchDigits | extractor.js:81 | Every phone match holds exactly ten digits and ends with one |
| Phone.BracketedNumber | extractor.js:81-82 | `(555) 123-4567` is returned whole |
| McNumber.LooseAt | extractor.js:95 | A match reported at `p` is one the loose regex allows there: `MC` in either case at `p`, an optional `-` or white space, then three to seven digits that are captured |
| McNumber.LooseGreedy | extractor.js:95 | When the loose pattern can match at `p` in any way, the scanner matches there with the same start and the longest capture, which stops at seven digits or at a non-digit |
| McNumber.MatchAt | extractor.js:95-98 | Any pattern's reported match captures three to seven digits after its start |
| McNumber.MatchAtSound | extractor.js:95-98 | Every match the scanner reports is one the regex allows: the label in either case at `p`, white space, then the loose pattern or the bare digits |
| McNumber.MatchAtComplete | extractor.js:95-98 | Whenever the regex allows a match at `p`, the scanner reports one there with the same capture start and a capture at least as long |
| McNumber.Search | extractor.js:100 | `html.match(p)` and `m[1]`: a capture, when there is one, is three to seven ASCII digits |
| McNumber.SearchNone | extractor.js:100 | `match` fails if and only if the pattern matches at no position |
| McNumber.SearchLeftmost | extractor.js:100 | `match` returns the capture of the leftmost matching position |
| McNumber.SearchSpec | extractor.js:100 | In regex terms: the leftmost position where the regex can match decides `match`, and the capture reported starts where the regex's does |
| McNumber.FirstMatch | extractor.js:100 | The loop over the list yields, when anything, three to seven ASCII digits |
| McNumber.FirstMatchIsFirst | extractor.js:100 | The list loop finds nothing if and only if every pattern fails, and otherwise returns the capture of the first pattern that matches |
| McNumber.FormatOr | extractor.js:100-101 | The result is `''` exactly when nothing was captured, and otherwise `MC-` followed by the captured digits |
| McNumber.McNumberAsWritten | extractor.js:93-101 | The MC number is `''` or `MC-` followed by three to seven ASCII digits |
| McNumber.LooseFirstDecides | extractor.js:94-101 | The loose pattern decides whenever it matches; otherwise only the bare `MC/MX Number:` pattern can match |
| McNumber.LooseLeftmostDecides | extractor.js:94-101 | On a page where the loose regex can match, the result is `MC-` followed by the greedy capture after the leftmost `MC`, in either case, at which it can |
| McNumber.LabelledNeedsLoose | extractor.js:95-97 | The two labelled patterns that end in `MC` digits match only where the loose pattern also matches |
| McNumber.FallbackIsDead | extractor.js:101 | The fallback runs only after the loose pattern has already failed, so it never finds anything |
| McNumber.BareLabelWithoutLoose | extractor.js:95-100 | `MC/MX Number: 123456` has no loose match but yields `MC-123456`, so the list does not reduce to the loose pattern |
| McNumber.LooseFirstHidesLabel | extractor.js:94-100 | `MC-100 MC/MX Number: 200`: as written the result is `MC-100`, ranked it is `MC-200` |
| McNumber.McNumberRanked | extractor.js:94-101 | With the labelled patterns first, the result is still `''` or `MC-` and three to seven digits |
| McNumber.RankedPrefersLabels | extractor.js:94-101 | In the ranked order a labelled match always decides, and the loose pattern only when no label matches |
| McNumber.RankedFindsSamePages | extractor.js:94-101 | The ranked and the as-written orders find an MC number on exactly the same pages |
| FetchRetry.FetchRetry | extractor.js:56-71 | At most `tries` attempts; success returns the body of the first 2xx response after only failed attempts; if all fail the last error is raised, a non-2xx status counting as failure; with `tries <= 0` a generic error is raised without any attempt; failed attempt `k` is followed by a sleep of `2000 * 2^k` ms |
| FetchRetry.Loop | extractor.js:58-68 | The loop from attempt `i`: it succeeds with the body of the first 2xx attempt from `i` on, or fails with the last attempt's error after `tries` attempts; one sleep of `2000 * 2^k` follows each failed attempt `k` |
| FetchRetry.Backoff | extractor.js:65 | Every backoff is at least the 2000 ms base |
| FetchRetry.BackoffDoubles | extractor.js:65 | Each backoff is twice the one before |
| FetchRetry.TotalOfBackoffs | extractor.js:65-67 | Sleeps `2000 * 2^k` for `k < n` add up to `2000 * (2^n - 1)` |
| FetchRetry.RetryWhenAllFail | extractor.js:56-71 | When all attempts fail, the last error is raised after one sleep per attempt, `2000 * (2^tries - 1)` ms in all |
| FetchRetry.RetryThenSucceed | extractor.js:56-71 | Succeeding only on the last attempt returns its body after `2000 * (2^(tries-1) - 1)` ms of sleep |
| FetchRetry.DefaultBackoffs | extractor.js:65-67 | With the default three attempts, a page that always fails sleeps 2000, 4000 and 8000 ms |

## Left out

- Configuration is not modelled: environment variables, the input list, the output directory and
  the file system (extractor.js:8-28). They are input and output.
- `fetchWithTimeout` is not modelled: the abort controller, the timers, and `fetch` itself
  (extractor.js:46-53). The network is the parameter `net`.
  - A time-out, a transport error and an unreadable body all appear as a thrown attempt.
  - A non-2xx status appears as a response with that status.
- The extraction timer at extractor.js:87 is not modelled. It throws inside a timer callback, so
  it cannot reject the surrounding call.
- `now()` and the log line at extractor.js:66 are not modelled. They only log.
- `sleep` is not modelled as waiting. Each sleep appears in the returned list of durations.
- `absoluteUrl` (extractor.js:41-43) is not modelled. It wraps the WHATWG URL parser, which is
  not part of this model.
- `run()` and the wave/concurrency orchestration are not modelled. They are referenced at
  extractor.js:106 but not defined there.
- The source file ends inside `extractOne`, just after the phone guess (extractor.js:105). Nothing after that point exists to model.
- FetchRetry.Backoff: `Math.pow` is a float, and `setTimeout` clamps delays above 2^31 - 1 ms.
  The model uses exact integers. The two agree for every attempt index up to 20.
- Strings are sequences of Unicode scalar values, while JavaScript strings are UTF-16 code units.
  Every pattern here is in the Basic Multilingual Plane, so matches and results agree.
  - `encodeURIComponent` throws on a lone surrogate. That cannot occur here.
- SnapshotUrl.McToSnapshotUrl: `String(mc || '')` is modelled for a string or an absent
  identifier. Numbers and other objects are not modelled, because the identifiers come from a
  text file.
- HtmlText.HtmlToText: `!s` is modelled as the empty string. A non-string argument would throw
  inside `replace` and is not modelled.
- UriComponent.Decode is the partner used to state the round trip, not a full model of
  `decodeURIComponent`.
  - It accepts overlong UTF-8 forms, which `decodeURIComponent` rejects.
  - The difference does not matter for decoding what `Encode` produces.
- The list result is not always the loose-pattern result. `McNumber.BareLabelWithoutLoose` shows a
  page where only the bare `MC/MX Number:` pattern matches. `McNumber.LooseFirstDecides` states the
  relation that does hold.

## Findings

| source | as written | input that shows it | evidently intended | confidence | as-written member | corrected member |
|---|---|---|---|---|---|---|
| extractor.js:94-100 | The loose pattern `MC[-\s]?(\d{3,7})` is first in the list. It then decides whenever it matches anywhere in the page, and the labelled `MC/MX Number:` patterns are never consulted. | `MC-100 MC/MX Number: 200` gives `MC-100` | The labelled patterns first, from most to least specific, with the loose pattern only as the fallback, giving `MC-200` | medium, not executed | McNumber.LooseFirstHidesLabel | McNumber.RankedPrefersLabels |

=== FILE: fetch_retry.dfy ===
/**
 The attempt/backoff loop of `fetchRetry`. The network is a parameter: `net(i)`
 is what attempt `i` (counting from 0) of `fetchWithTimeout` produced. The loop
 returns the body of the first attempt whose response is 2xx, or raises the
 error of the last attempt; after every failed attempt, the last one included,
 it sleeps `BACKOFF_BASE_MS * 2^i` milliseconds.
 */
module FetchRetry {
  import opened Wrappers

  /** Default number of attempts. */
  const MaxRetries: nat := 3
  /** Backoff after the first failure, in milliseconds; it doubles per attempt. */
  const BackoffBaseMs: nat := 2000

  /** What one attempt produced. */
  datatype Attempt =
    | Response(status: int, body: string)  // the request resolved and its body was read
    | Thrown(message: string)              // rejected: transport error, timeout abort, or unreadable body

  /** What `fetchRetry` raises. */
  datatype FetchError =
    | HttpStatus(tag: string, status: int)  // `${label} HTTP ${status}` for a non-2xx response
    | Rejected(message: string)               // the error an attempt threw
    | NoAttempt(tag: string)                // `${label} failed`, when no attempt was made

  /** `resp.ok`: the status is in the 2xx range. */
  predicate IsOk(status: int) {
    200 <= status <= 299
  }

  /** The attempt yields a body that `fetchRetry` returns. */
  predicate Succeeds(a: Attempt) {
    a.Response? && IsOk(a.status)
  }

  /** The error a failed attempt leaves in `lastErr`. */
  function ErrorOf(a: Attempt, tag: string): FetchError
    requires !Succeeds(a)
  {
    match a
    case Response(status, _) => HttpStatus(tag, status)
    case Thrown(message) => Rejected(message)
  }

  function Pow2(i: nat): (r: nat)
    ensures r >= 1
  {
    if i == 0 then 1 else 2 * Pow2(i - 1)
  }

  /** `BACKOFF_BASE_MS * Math.pow(2, i)`. */
  function Backoff(i: nat): (ms: nat)
    ensures ms >= BackoffBaseMs
  {
    BackoffBaseMs * Pow2(i)
  }

  /** Each backoff is twice the one before. */
  lemma BackoffDoubles(i: nat)
    ensures Backoff(i + 1) == 2 * Backoff(i)
  {
  }

  /** The outcome of one call: the value returned or the error raised, the
      number of attempts made and the sleeps performed, in order. */
  datatype Run = Run(result: Result<string, FetchError>, attempts: nat, sleeps: seq<nat>)

  /** The loop from attempt `i` on, `last` holding the error of attempt `i - 1`. */
  function Loop(net: nat -> Attempt, tries: int, tag: string, i: nat, last: Option<FetchError>): (r: Run)
    requires i == 0 <==> last.None?
    ensures i <= r.attempts
    ensures r.result.Success? ==>
      && i < r.attempts <= tries
      && Succeeds(net(r.attempts - 1))
      && r.result.value == net(r.attempts - 1).body
      && forall j :: i <= j < r.attempts - 1 ==> !Succeeds(net(j))
    ensures r.result.Failure? ==>
      && r.attempts == (if i < tries then tries else i)
      && forall j :: i <= j < tries ==> !Succeeds(net(j))
    ensures r.result.Failure? && i < tries ==> r.result.error == ErrorOf(net(tries - 1), tag)
    ensures r.result.Failure? && tries <= i ==>
      r.result.error == (if i == 0 then NoAttempt(tag) else last.value)
    ensures |r.sleeps| == r.attempts - i - (if r.result.Success? then 1 else 0)
    ensures forall k :: 0 <= k < |r.sleeps| ==> r.sleeps[k] == Backoff(i + k)
    decreases tries - i
  {
    if i >= tries then
      Run(Failure(if i == 0 then NoAttempt(tag) else last.value), i, [])
    else
      var a := net(i);
      if Succeeds(a) then Run(Success(a.body), i + 1, [])
      else
        var rest := Loop(net, tries, tag, i + 1, Some(ErrorOf(a, tag)));
        Run(rest.result, rest.attempts, [Backoff(i)] + rest.sleeps)
  }

  /** `fetchRetry(url, tries, timeout, label)` with `net` standing for the
      network and `tag` for `label`. It makes at most `tries` attempts and returns the body of the
      first 2xx response, all earlier attempts having failed; if every attempt
      fails it raises the last attempt's error, and with `tries <= 0` it raises
      `${label} failed` without trying. Failed attempt `k` is followed by a
      sleep of `2000 * 2^k` ms. */
  function FetchRetry(net: nat -> Attempt, tries: int, tag: string): (r: Run)
    ensures r.result.Success? ==>
      && 0 < r.attempts <= tries
      && Succeeds(net(r.attempts - 1))
      && r.result.value == net(r.attempts - 1).body
      && forall j :: 0 <= j < r.attempts - 1 ==> !Succeeds(net(j))
    ensures r.result.Failure? ==>
      && r.attempts == (if tries > 0 then tries else 0)
      && forall j :: 0 <= j < tries ==> !Succeeds(net(j))
    ensures r.result.Failure? ==>
      r.result.error == (if tries > 0 then ErrorOf(net(tries - 1), tag) else NoAttempt(tag))
    ensures |r.sleeps| == (if r.result.Success? then r.attempts - 1 else r.attempts)
    ensures forall k :: 0 <= k < |r.sleeps| ==> r.sleeps[k] == Backoff(k)
  {
    Loop(net, tries, tag, 0, None)
  }

  /** Sum of a list of sleeps. */
  function Total(s: seq<nat>): nat {
    if s == [] then 0 else Total(s[..|s| - 1]) + s[|s| - 1]
  }

  /** Sleeps `2000, 4000, ...` add up to `2000 * (2^n - 1)`. */
  lemma {:induction false} TotalOfBackoffs(s: seq<nat>)
    requires forall k :: 0 <= k < |s| ==> s[k] == Backoff(k)
    ensures Total(s) == BackoffBaseMs * (Pow2(|s|) - 1)
  {
    if s != [] {
      var n := |s|;
      TotalOfBackoffs(s[..n - 1]);
      assert Pow2(n) == 2 * Pow2(n - 1);
    }
  }

  /** When every attempt fails, the last attempt's error is raised after one
      sleep per attempt, `2000 * (2^tries - 1)` ms in all. */
  lemma RetryWhenAllFail(net: nat -> Attempt, tries: int, tag: string)
    requires tries > 0
    requires forall j :: 0 <= j < tries ==> !Succeeds(net(j))
    ensures var r := FetchRetry(net, tries, tag);
      && r.result == Failure(ErrorOf(net(tries - 1), tag))
      && r.attempts == tries
      && |r.sleeps| == tries
      && Total(r.sleeps) == BackoffBaseMs * (Pow2(tries) - 1)
  {
    var r := FetchRetry(net, tries, tag);
    TotalOfBackoffs(r.sleeps);
  }

  /** Failing every attempt but the last still returns the last attempt's body,
      after `2000 * (2^(tries-1) - 1)` ms of sleep. */
  lemma RetryThenSucceed(net: nat -> Attempt, tries: int, tag: string)
    requires tries > 0
    requires forall j :: 0 <= j < tries - 1 ==> !Succeeds(net(j))
    requires Succeeds(net(tries - 1))
    ensures var r := FetchRetry(net, tries, tag);
      && r.result == Success(net(tries - 1).body)
      && r.attempts == tries
      && Total(r.sleeps) == BackoffBaseMs * (Pow2(tries - 1) - 1)
  {
    var r := FetchRetry(net, tries, tag);
    TotalOfBackoffs(r.sleeps);
  }

  /** With the default three attempts, a page that always fails costs sleeps of
      2000, 4000 and 8000 ms, 14000 ms in all. */
  lemma DefaultBackoffs(net: nat -> Attempt, tag: string)
    requires forall j :: 0 <= j < MaxRetries ==> !Succeeds(net(j))
    ensures FetchRetry(net, MaxRetries, tag).sleeps == [2000, 4000, 8000]
    ensures Total(FetchRetry(net, MaxRetries, tag).sleeps) == 14000
  {
    RetryWhenAllFail(net, MaxRetries, tag);
    var s := FetchRetry(net, MaxRetries, tag).sleeps;
    assert Pow2(1) == 2 && Pow2(2) == 4 && Pow2(3) == 8;
    assert s[0] == 2000 && s[1] == 4000 && s[2] == 8000;
  }
}

=== FILE: html_text.dfy ===
/**
 `htmlToText`: markup flattened to readable text. Tags become single spaces,
 the four entities `&nbsp;`, `&amp;`, `&lt;`, `&gt;` are decoded one after the
 other in that order, runs of white space collapse to one space and the ends are
 trimmed.
 */
module HtmlText {
  import opened JsText

  /** No `<` is followed, anywhere later, by a `>`: no complete tag is left. */
  predicate NoTag(s: string) {
    forall i, j :: 0 <= i < j < |s| && s[i] == '<' ==> s[j] != '>'
  }

  /** No two white-space characters stand next to each other. */
  predicate NoDoubleWs(s: string) {
    forall i :: 0 <= i < |s| - 1 ==> !(IsWs(s[i]) && IsWs(s[i + 1]))
  }

  /** Neither end of `s` is white space. */
  predicate Trimmed(s: string) {
    |s| > 0 ==> !IsWs(s[0]) && !IsWs(s[|s| - 1])
  }

  /** Position of the first `>` at or after `i`, or `|s|` when there is none. */
  function TagClose(s: string, i: nat): (j: nat)
    requires i <= |s|
    ensures i <= j <= |s|
    ensures j < |s| ==> s[j] == '>'
    ensures forall k :: i <= k < j ==> s[k] != '>'
    decreases |s| - i
  {
    if i == |s| || s[i] == '>' then i else TagClose(s, i + 1)
  }

  /** `s.replace(/<[^>]*>/g, ' ')`. A `<` opens a tag only when a `>` follows it
      somewhere; the tag runs to the first such `>`. */
  function StripTags(s: string): (r: string)
    ensures NoTag(r)
    ensures forall k :: 0 <= k < |r| ==> r[k] == ' ' || r[k] in s
    ensures (forall k :: 0 <= k < |s| ==> s[k] != '<') ==> r == s
    decreases |s|
  {
    if s == [] then []
    else if s[0] == '<' && TagClose(s, 1) < |s| then
      var rest := StripTags(s[TagClose(s, 1) + 1..]);
      assert forall k :: 0 <= k < |rest| ==> rest[k] == ' ' || rest[k] in s;
      [' '] + rest
    else
      var rest := StripTags(s[1..]);
      assert forall k :: 0 <= k < |rest| ==> rest[k] == ' ' || rest[k] in s;
      if s[0] == '<' then
        assert forall k :: 0 <= k < |rest| ==> rest[k] != '>' by {
          forall k | 0 <= k < |rest|
            ensures rest[k] != '>'
          {
            if rest[k] != ' ' {
              var m :| 1 <= m < |s| && s[m] == rest[k];
            }
          }
        }
        [s[0]] + rest
      else
        [s[0]] + rest
  }

  /** A tag becomes exactly one space, and the tag-free text in front of it is
      kept as it is, in order. */
  lemma TagBecomesSpace(a: string, t: string, b: string)
    requires forall k :: 0 <= k < |a| ==> a[k] != '<'
    requires forall k :: 0 <= k < |t| ==> t[k] != '>'
    ensures StripTags(a + ['<'] + t + ['>'] + b) == a + [' '] + StripTags(b)
  {
    var x := ['<'] + t + ['>'] + b;
    assert a + ['<'] + t + ['>'] + b == a + x;
    TagFreePrefix(a, x);
    TagAtStart(t, b);
  }

  /** Text without `<` in front of anything is kept as it is. */
  lemma {:induction false} TagFreePrefix(a: string, x: string)
    requires forall k :: 0 <= k < |a| ==> a[k] != '<'
    ensures StripTags(a + x) == a + StripTags(x)
    decreases |a|
  {
    if a == [] {
      assert a + x == x;
    } else {
      TagFreePrefix(a[1..], x);
      TagFreeStep(a, x);
    }
  }

  /** A `<` with no `>` after it opens no tag: text without `>` is kept as it is. */
  lemma {:induction false} UnclosedKept(s: string)
    requires forall k :: 0 <= k < |s| ==> s[k] != '>'
    ensures StripTags(s) == s
    decreases |s|
  {
    if s != [] {
      UnclosedKept(s[1..]);
      assert s == [s[0]] + s[1..];
    }
  }

  lemma TagFreeStep(a: string, x: string)
    requires a != [] && a[0] != '<'
    requires StripTags(a[1..] + x) == a[1..] + StripTags(x)
    ensures StripTags(a + x) == a + StripTags(x)
  {
    KeepFirst(a, x);
    ConsSplit(a, StripTags(x));
  }

  /** A first character that opens no tag is kept. */
  lemma KeepFirst(a: string, x: string)
    requires a != [] && a[0] != '<'
    ensures StripTags(a + x) == [a[0]] + StripTags(a[1..] + x)
  {
    assert (a + x)[1..] == a[1..] + x;
  }

  /** A tag at the front becomes one space. */
  lemma TagAtStart(t: string, b: string)
    requires forall k :: 0 <= k < |t| ==> t[k] != '>'
    ensures StripTags(['<'] + t + ['>'] + b) == [' '] + StripTags(b)
  {
    var s := ['<'] + t + ['>'] + b;
    assert s[|t| + 1] == '>';
    assert forall k :: 1 <= k <= |t| ==> s[k] == t[k - 1];
    assert TagClose(s, 1) == |t| + 1;
    assert s[|t| + 2..] == b;
  }

  /** `s.replace(/pat/g, rep)` for a literal pattern: the leftmost occurrence is
      replaced, then the search resumes after it. */
  function ReplaceAll(s: string, pat: string, rep: string): (r: string)
    requires |pat| > 0
    ensures |rep| <= |pat| ==> |r| <= |s|
    decreases |s|
  {
    if s == [] then []
    else if OccursAt(s, 0, pat) then rep + ReplaceAll(s[|pat|..], pat, rep)
    else [s[0]] + ReplaceAll(s[1..], pat, rep)
  }

  lemma ContainsTail(s: string, w: string)
    requires |s| > 0
    ensures Contains(s[1..], w) ==> Contains(s, w)
  {
    if Contains(s[1..], w) {
      var i :| 0 <= i <= |s[1..]| && OccursAt(s[1..], i, w);
      assert s[i + 1..i + 1 + |w|] == s[1..][i..i + |w|];
      assert OccursAt(s, i + 1, w);
    }
  }

  /** Without an occurrence of the pattern nothing is replaced. */
  lemma {:induction false} ReplaceWithoutOccurrence(s: string, pat: string, rep: string)
    requires |pat| > 0 && !Contains(s, pat)
    ensures ReplaceAll(s, pat, rep) == s
    decreases |s|
  {
    if s != [] {
      assert !OccursAt(s, 0, pat);
      ContainsTail(s, pat);
      ReplaceWithoutOccurrence(s[1..], pat, rep);
    }
  }

  /** `a` and `b` have no character in common. */
  predicate Disjoint(a: string, b: string) {
    forall i, j :: 0 <= i < |a| && 0 <= j < |b| ==> a[i] != b[j]
  }

  /** A replacement text that shares no character with the pattern cannot make
      the pattern appear again: every occurrence is gone afterwards. */
  lemma {:induction false} ReplaceLeavesNone(s: string, pat: string, rep: string)
    requires |pat| > 0 && |rep| > 0
    requires Disjoint(pat, rep)
    ensures !Contains(ReplaceAll(s, pat, rep), pat)
    decreases |s|
  {
    if s == [] {
    } else if OccursAt(s, 0, pat) {
      ReplaceLeavesNone(s[|pat|..], pat, rep);
      NoneAfterReplaced(s, pat, rep);
    } else {
      ReplaceLeavesNone(s[1..], pat, rep);
      NoneAfterKept(s, pat, rep);
    }
  }

  /** The step of `ReplaceLeavesNone` where `s` starts with the pattern. */
  lemma NoneAfterReplaced(s: string, pat: string, rep: string)
    requires |pat| > 0 && |rep| > 0
    requires Disjoint(pat, rep)
    requires OccursAt(s, 0, pat)
    requires !Contains(ReplaceAll(s[|pat|..], pat, rep), pat)
    ensures !Contains(ReplaceAll(s, pat, rep), pat)
  {
    NoneInConcat(rep, ReplaceAll(s[|pat|..], pat, rep), pat);
  }

  /** The step of `ReplaceLeavesNone` where the first character of `s` is kept. */
  lemma NoneAfterKept(s: string, pat: string, rep: string)
    requires |pat| > 0 && |rep| > 0
    requires Disjoint(pat, rep)
    requires |s| > 0 && !OccursAt(s, 0, pat)
    requires !Contains(ReplaceAll(s[1..], pat, rep), pat)
    ensures !Contains(ReplaceAll(s, pat, rep), pat)
  {
    KeptStart(s, pat, rep);
    assert ReplaceAll(s, pat, rep) == [s[0]] + ReplaceAll(s[1..], pat, rep);
    NoneAfterHead(s[0], ReplaceAll(s[1..], pat, rep), pat);
  }

  /** A character in front of a text without `pat` adds no occurrence unless one starts at it. */
  lemma NoneAfterHead(c: char, t: string, pat: string)
    requires !OccursAt([c] + t, 0, pat) && !Contains(t, pat)
    ensures !Contains([c] + t, pat)
  {
    forall i | 0 <= i <= |[c] + t|
      ensures !OccursAt([c] + t, i, pat)
    {
      if i > 0 {
        OccursShift([c], t, i - 1, pat);
      }
    }
  }

  /** No occurrence can start at a kept first character. */
  lemma KeptStart(s: string, pat: string, rep: string)
    requires |pat| > 0 && |rep| > 0
    requires Disjoint(pat, rep)
    requires |s| > 0 && !OccursAt(s, 0, pat)
    ensures !OccursAt(ReplaceAll(s, pat, rep), 0, pat)
  {
    var t := ReplaceAll(s[1..], pat, rep);
    var r := ReplaceAll(s, pat, rep);
    assert r == [s[0]] + t;
    if OccursAt(r, 0, pat) {
      assert t[..|pat| - 1] == pat[1..];
      assert Disjoint(pat[1..], rep);
      ReplacedPrefix(s[1..], pat, rep, pat[1..]);
      PrefixCons(s, pat);
    }
  }

  /** `w` starts `s` when its head starts `s` and its tail starts `s[1..]`. */
  lemma PrefixCons(s: string, w: string)
    requires |s| > 0 && |w| > 0 && s[0] == w[0]
    requires OccursAt(s[1..], 0, w[1..])
    ensures OccursAt(s, 0, w)
  {
    assert s[..|w|] == [s[0]] + s[1..][..|w| - 1];
  }

  /** A pattern found at position `|a| + i` of `a + b` is found at `i` of `b`. */
  lemma OccursShift(a: string, b: string, i: nat, w: string)
    ensures OccursAt(a + b, |a| + i, w) <==> OccursAt(b, i, w)
  {
    if |a| + i + |w| <= |a + b| {
      assert (a + b)[|a| + i..|a| + i + |w|] == b[i..i + |w|];
    }
  }

  /** No occurrence starts inside a prefix made of characters foreign to the pattern. */
  lemma NoneInConcat(a: string, b: string, pat: string)
    requires |pat| > 0
    requires Disjoint(pat, a)
    requires !Contains(b, pat)
    ensures !Contains(a + b, pat)
  {
    forall i | 0 <= i <= |a + b|
      ensures !OccursAt(a + b, i, pat)
    {
      if i < |a| {
        assert (a + b)[i] == a[i] != pat[0];
        assert i + |pat| <= |a + b| ==> (a + b)[i..i + |pat|][0] == (a + b)[i];
      } else {
        OccursShift(a, b, i - |a|, pat);
      }
    }
  }

  /** A prefix of the replaced text that uses no character of the replacement
      was already a prefix of the original. */
  lemma {:induction false} ReplacedPrefix(t: string, pat: string, rep: string, w: string)
    requires |pat| > 0 && |rep| > 0
    requires Disjoint(w, rep)
    requires OccursAt(ReplaceAll(t, pat, rep), 0, w)
    ensures OccursAt(t, 0, w)
    decreases |t|
  {
    var r := ReplaceAll(t, pat, rep);
    if w != [] {
      assert r[0] == w[0];
      if !OccursAt(t, 0, pat) {
        var u := ReplaceAll(t[1..], pat, rep);
        assert r == [t[0]] + u;
        assert u[..|w| - 1] == w[1..];
        ReplacedPrefix(t[1..], pat, rep, w[1..]);
        assert t[..|w|] == [t[0]] + t[1..][..|w| - 1];
      }
    }
  }

  /** The four entity replacements, in the order the source applies them. */
  function DecodeEntities(s: string): (r: string)
    ensures |r| <= |s|
  {
    var a := ReplaceAll(s, "&nbsp;", " ");
    var b := ReplaceAll(a, "&amp;", "&");
    var c := ReplaceAll(b, "&lt;", "<");
    ReplaceAll(c, "&gt;", ">")
  }

  /** Drops the white space at the front of `s`. */
  function TrimStart(s: string): (r: string)
    ensures |r| <= |s| && r == s[|s| - |r|..]
    ensures |r| > 0 ==> !IsWs(r[0])
    ensures forall k :: 0 <= k < |s| - |r| ==> IsWs(s[k])
  {
    if s != [] && IsWs(s[0]) then TrimStart(s[1..]) else s
  }

  /** Drops the white space at the end of `s`. */
  function TrimEnd(s: string): (r: string)
    ensures |r| <= |s| && r == s[..|r|]
    ensures |r| > 0 ==> !IsWs(r[|r| - 1])
    ensures forall k :: |r| <= k < |s| ==> IsWs(s[k])
  {
    if s != [] && IsWs(s[|s| - 1]) then TrimEnd(s[..|s| - 1]) else s
  }

  /** `s.replace(/\s+/g, ' ')`: each maximal run of white space becomes one space. */
  function CollapseWs(s: string): (r: string)
    ensures NoDoubleWs(r)
    ensures forall k :: 0 <= k < |r| && IsWs(r[k]) ==> r[k] == ' '
    decreases |s|
  {
    if s == [] then []
    else if IsWs(s[0]) then
      var t := TrimStart(s);
      var rest := CollapseWs(t);
      [' '] + rest
    else
      [s[0]] + CollapseWs(s[1..])
  }

  /** A run of white space between text without white space and a non-space
      character becomes exactly one space. */
  lemma RunBecomesSpace(a: string, w: string, b: string)
    requires NoWs(a) && |w| > 0
    requires forall k :: 0 <= k < |w| ==> IsWs(w[k])
    requires b == [] || !IsWs(b[0])
    ensures CollapseWs(a + w + b) == a + [' '] + CollapseWs(b)
  {
    assert a + w + b == a + (w + b);
    WsFreePrefix(a, w + b);
    RunAtStart(w, b);
  }

  /** Text without white space in front of anything is kept as it is. */
  lemma {:induction false} WsFreePrefix(a: string, x: string)
    requires NoWs(a)
    ensures CollapseWs(a + x) == a + CollapseWs(x)
    decreases |a|
  {
    if a == [] {
      assert a + x == x;
    } else {
      WsFreePrefix(a[1..], x);
      WsFreeStep(a, x);
    }
  }

  lemma WsFreeStep(a: string, x: string)
    requires a != [] && !IsWs(a[0])
    requires CollapseWs(a[1..] + x) == a[1..] + CollapseWs(x)
    ensures CollapseWs(a + x) == a + CollapseWs(x)
  {
    WsKeepFirst(a, x);
    ConsSplit(a, CollapseWs(x));
  }

  /** A first character that is not white space is kept. */
  lemma WsKeepFirst(a: string, x: string)
    requires a != [] && !IsWs(a[0])
    ensures CollapseWs(a + x) == [a[0]] + CollapseWs(a[1..] + x)
  {
    assert (a + x)[1..] == a[1..] + x;
  }

  lemma ConsSplit<T>(a: seq<T>, v: seq<T>)
    requires a != []
    ensures [a[0]] + (a[1..] + v) == a + v
  {
    assert a == [a[0]] + a[1..];
  }

  /** A run of white space at the front becomes one space. */
  lemma RunAtStart(w: string, b: string)
    requires |w| > 0 && forall k :: 0 <= k < |w| ==> IsWs(w[k])
    requires b == [] || !IsWs(b[0])
    ensures CollapseWs(w + b) == [' '] + CollapseWs(b)
  {
    TrimRun(w, b);
  }

  /** Trimming the front drops exactly a leading run of white space. */
  lemma {:induction false} TrimRun(w: string, b: string)
    requires forall k :: 0 <= k < |w| ==> IsWs(w[k])
    requires b == [] || !IsWs(b[0])
    ensures TrimStart(w + b) == b
    decreases |w|
  {
    if w == [] {
      assert w + b == b;
    } else {
      TrimRun(w[1..], b);
      TrimFirst(w, b);
    }
  }

  lemma TrimFirst(w: string, b: string)
    requires w != [] && IsWs(w[0])
    ensures TrimStart(w + b) == TrimStart(w[1..] + b)
  {
    assert (w + b)[1..] == w[1..] + b;
  }

  /** `String.prototype.trim`. */
  function Trim(s: string): string {
    TrimEnd(TrimStart(s))
  }

  /** `htmlToText(s)`: empty for an empty body; otherwise text with no white space
      at either end, no two white-space characters in a row, only plain spaces as
      white space, and, white space aside, the same characters as the decoded
      tag-free markup. */
  function HtmlToText(s: string): (r: string)
    ensures |s| == 0 ==> r == ""
    ensures Trimmed(r) && NoDoubleWs(r)
    ensures forall k :: 0 <= k < |r| && IsWs(r[k]) ==> r[k] == ' '
  {
    if |s| == 0 then ""
    else
      var c := CollapseWs(DecodeEntities(StripTags(s)));
      TrimKeepsShape(c);
      Trim(c)
  }

  /** Only white space is lost: apart from it, the text is exactly the decoded
      text with the tags stripped. */
  lemma HtmlToTextKeepsText(s: string)
    ensures StripWs(HtmlToText(s)) == StripWs(DecodeEntities(StripTags(s)))
  {
    if |s| > 0 {
      var d := DecodeEntities(StripTags(s));
      CollapseKeepsText(d);
      TrimKeepsText(CollapseWs(d));
    }
  }

  /** `&gt;` is decoded last and `>` is not part of it, so no `&gt;` is left
      after decoding. */
  lemma DecodedHasNoGt(s: string)
    ensures !Contains(DecodeEntities(s), "&gt;")
  {
    var c := ReplaceAll(ReplaceAll(ReplaceAll(s, "&nbsp;", " "), "&amp;", "&"), "&lt;", "<");
    ReplaceLeavesNone(c, "&gt;", ">");
  }

  // ---- lemmas ----

  lemma StripWsAllWs(s: string)
    requires forall k :: 0 <= k < |s| ==> IsWs(s[k])
    ensures StripWs(s) == []
  {
    if s != [] {
      StripWsAllWs(s[1..]);
    }
  }

  /** Collapsing white space keeps every other character, in order. */
  lemma {:induction false} CollapseKeepsText(s: string)
    ensures StripWs(CollapseWs(s)) == StripWs(s)
    decreases |s|
  {
    if s != [] {
      if IsWs(s[0]) {
        CollapseKeepsText(TrimStart(s));
        CollapseSpaceStep(s);
      } else {
        CollapseKeepsText(s[1..]);
        CollapseCharStep(s);
      }
    }
  }

  /** A white space run becomes one space, which stripping removes as it does the run. */
  lemma CollapseSpaceStep(s: string)
    requires s != [] && IsWs(s[0])
    ensures StripWs(CollapseWs(s)) == StripWs(CollapseWs(TrimStart(s)))
    ensures StripWs(s) == StripWs(TrimStart(s))
  {
    TrimStartKeepsText(s);
    StripWsAppend([' '], CollapseWs(TrimStart(s)));
  }

  /** Any other character is kept by both. */
  lemma CollapseCharStep(s: string)
    requires s != [] && !IsWs(s[0])
    ensures StripWs(CollapseWs(s)) == [s[0]] + StripWs(CollapseWs(s[1..]))
    ensures StripWs(s) == [s[0]] + StripWs(s[1..])
  {
    StripWsAppend([s[0]], CollapseWs(s[1..]));
  }

  /** Trimming removes white space only. */
  lemma TrimKeepsText(s: string)
    ensures StripWs(Trim(s)) == StripWs(s)
  {
    TrimStartKeepsText(s);
    TrimEndKeepsText(TrimStart(s));
  }

  lemma TrimStartKeepsText(s: string)
    ensures StripWs(TrimStart(s)) == StripWs(s)
  {
    var a := TrimStart(s);
    var lead := s[..|s| - |a|];
    assert s == lead + a;
    StripWsAllWs(lead);
    StripWsAppend(lead, a);
  }

  lemma TrimEndKeepsText(s: string)
    ensures StripWs(TrimEnd(s)) == StripWs(s)
  {
    var b := TrimEnd(s);
    var tail := s[|b|..];
    assert s == b + tail;
    StripWsAllWs(tail);
    StripWsAppend(b, tail);
  }

  /** Trimming a collapsed string leaves it trimmed and collapsed. */
  lemma TrimKeepsShape(s: string)
    requires NoDoubleWs(s)
    requires forall k :: 0 <= k < |s| && IsWs(s[k]) ==> s[k] == ' '
    ensures Trimmed(Trim(s)) && NoDoubleWs(Trim(s))
    ensures forall k :: 0 <= k < |Trim(s)| && IsWs(Trim(s)[k]) ==> Trim(s)[k] == ' '
  {
    var a := TrimStart(s);
    var b := TrimEnd(a);
    var off := |s| - |a|;
    assert forall k :: 0 <= k < |b| ==> b[k] == s[off + k];
    if |b| > 0 {
      assert b[0] == a[0];
    }
  }

  // ---- words and separators ----

  /** A word: non-empty, no white space, and neither a tag opening nor an entity in it. */
  predicate Word(s: string) {
    |s| > 0 && forall k :: 0 <= k < |s| ==> s[k] != '<' && s[k] != '&' && !IsWs(s[k])
  }

  /** A complete tag `<...>`. */
  predicate IsTag(sep: string) {
    && |sep| >= 2 && sep[0] == '<' && sep[|sep| - 1] == '>'
    && forall k :: 1 <= k < |sep| - 1 ==> sep[k] != '>'
  }

  /** A non-empty run of white space. */
  predicate IsWsRun(sep: string) {
    |sep| > 0 && WsSpan(sep, 0, |sep|)
  }

  /** Two words separated by a tag or by any run of white space come out
      separated by exactly one space. */
  lemma WordsSeparated(x: string, sep: string, y: string)
    requires Word(x) && Word(y) && (IsTag(sep) || IsWsRun(sep))
    ensures HtmlToText(x + sep + y) == x + " " + y
  {
    var m := SeparatorStripped(x, sep, y);
    SpacedDecodes(x, m, y);
    RunBecomesSpace(x, m, y);
    CollapseNoWs(y);
    SpacedTrimmed(x, y);
  }

  /** Stripping tags turns a tag separator into one space and keeps a white-space one. */
  lemma SeparatorStripped(x: string, sep: string, y: string) returns (m: string)
    requires Word(x) && Word(y) && (IsTag(sep) || IsWsRun(sep))
    ensures IsWsRun(m) && StripTags(x + sep + y) == x + m + y
  {
    if IsTag(sep) {
      TagSeparator(x, sep, y);
      m := [' '];
    } else {
      m := sep;
      NoOpenIn(x, sep, y);
    }
  }

  lemma TagSeparator(x: string, sep: string, y: string)
    requires Word(x) && Word(y) && IsTag(sep)
    ensures StripTags(x + sep + y) == x + [' '] + y
  {
    var t := sep[1..|sep| - 1];
    TagSplit(x, sep, y, t);
    TagBecomesSpace(x, t, y);
    assert forall k :: 0 <= k < |y| ==> y[k] != '<';
  }

  lemma TagSplit(x: string, sep: string, y: string, t: string)
    requires |sep| >= 2 && t == sep[1..|sep| - 1]
    ensures x + sep + y == x + [sep[0]] + t + [sep[|sep| - 1]] + y
  {
    assert sep == [sep[0]] + t + [sep[|sep| - 1]];
  }

  /** Without `<` there is no tag to strip. */
  lemma NoOpenIn(x: string, sep: string, y: string)
    requires Word(x) && Word(y) && IsWsRun(sep)
    ensures StripTags(x + sep + y) == x + sep + y
  {
    var s := x + sep + y;
    forall k | 0 <= k < |s|
      ensures s[k] != '<'
    {
      if k < |x| {
        assert s[k] == x[k];
      } else if k < |x| + |sep| {
        assert s[k] == sep[k - |x|];
      } else {
        assert s[k] == y[k - |x| - |sep|];
      }
    }
  }

  /** Without `&` there is no entity to decode. */
  lemma SpacedDecodes(x: string, m: string, y: string)
    requires Word(x) && Word(y) && IsWsRun(m)
    ensures DecodeEntities(x + m + y) == x + m + y
  {
    var s := x + m + y;
    forall k | 0 <= k < |s|
      ensures s[k] != '&'
    {
      if k < |x| {
        assert s[k] == x[k];
      } else if k < |x| + |m| {
        assert s[k] == m[k - |x|];
      } else {
        assert s[k] == y[k - |x| - |m|];
      }
    }
    NoEntity(s);
  }

  lemma NoEntity(s: string)
    requires forall k :: 0 <= k < |s| ==> s[k] != '&'
    ensures DecodeEntities(s) == s
  {
    ReplaceAbsent(s, "&nbsp;", " ");
    ReplaceAbsent(s, "&amp;", "&");
    ReplaceAbsent(s, "&lt;", "<");
    ReplaceAbsent(s, "&gt;", ">");
  }

  /** Two words around one space have nothing to trim. */
  lemma SpacedTrimmed(x: string, y: string)
    requires Word(x) && Word(y)
    ensures Trim(x + [' '] + y) == x + " " + y
  {
    var s := x + [' '] + y;
    assert s[0] == x[0];
    assert s[|s| - 1] == y[|y| - 1];
  }

  // ---- behaviour on particular inputs ----

  /** A string in which the pattern's first character never appears is left alone. */
  lemma ReplaceAbsent(s: string, pat: string, rep: string)
    requires |pat| > 0
    requires forall k :: 0 <= k < |s| ==> s[k] != pat[0]
    ensures ReplaceAll(s, pat, rep) == s
  {
    if s != [] {
      ReplaceAbsent(s[1..], pat, rep);
    }
  }

  /** Decoded text without white space passes the last two stages unchanged. */
  lemma PlainText(s: string, d: string)
    requires |s| > 0 && DecodeEntities(StripTags(s)) == d && NoWs(d)
    ensures HtmlToText(s) == d
  {
    CollapseNoWs(d);
  }

  lemma CollapseNoWs(d: string)
    requires NoWs(d)
    ensures CollapseWs(d) == d
  {
    if d != [] {
      CollapseNoWs(d[1..]);
    }
  }

  /** Entities are decoded one after the other, so `&amp;lt;` decodes twice, to `<`. */
  lemma AmpThenLt(s: string)
    requires s == "&amp;lt;"
    ensures HtmlToText(s) == "<"
  {
    AmpThenLtDecodes(s);
    PlainText(s, "<");
  }

  lemma AmpThenLtDecodes(s: string)
    requires s == "&amp;lt;"
    ensures DecodeEntities(StripTags(s)) == "<"
  {
    AmpLtKeepsNbsp(s);
    AmpLtDecodesAmp(s);
    LtEntityDecodes();
    ReplaceAbsent("<", "&gt;", ">");
  }

  /** `&amp;lt;` holds no tag and no `&nbsp;`: the first two stages keep it. */
  lemma AmpLtKeepsNbsp(s: string)
    requires s == "&amp;lt;"
    ensures StripTags(s) == s
    ensures ReplaceAll(s, "&nbsp;", " ") == s
  {
    assert !OccursAt(s, 0, "&nbsp;") by {
      assert s[0..6][1] != "&nbsp;"[1];
    }
    ReplaceAbsent(s[1..], "&nbsp;", " ");
  }

  /** Decoding `&amp;` leaves `&lt;`. */
  lemma AmpLtDecodesAmp(s: string)
    requires s == "&amp;lt;"
    ensures ReplaceAll(s, "&amp;", "&") == "&lt;"
  {
    assert OccursAt(s, 0, "&amp;");
    ReplaceAbsent(s[5..], "&amp;", "&");
  }

  /** Decoding `&lt;` then yields `<`. */
  lemma LtEntityDecodes()
    ensures ReplaceAll("&lt;", "&lt;", "<") == "<"
  {
    assert OccursAt("&lt;", 0, "&lt;");
  }

  /** Tags are stripped before entities are decoded, so an escaped tag survives as text. */
  lemma EscapedTagSurvives(s: string)
    requires s == "&lt;b&gt;"
    ensures HtmlToText(s) == "<b>"
  {
    EscapedDecodes(s);
    PlainText(s, "<b>");
  }

  lemma EscapedDecodes(s: string)
    requires s == "&lt;b&gt;"
    ensures DecodeEntities(StripTags(s)) == "<b>"
  {
    EscapedHasNoTag(s);
    EscapedNbsp(s);
    EscapedAmp(s);
    EscapedLt(s);
    EscapedGt();
  }

  lemma EscapedHasNoTag(s: string)
    requires s == "&lt;b&gt;"
    ensures StripTags(s) == s
  {
    assert forall k :: 0 <= k < |s| ==> s[k] != '<';
  }

  /** Replacing skips a prefix in which the pattern's first character never appears. */
  lemma {:induction false} ReplaceAbsentPrefix(a: string, b: string, pat: string, rep: string)
    requires |pat| > 0
    requires forall k :: 0 <= k < |a| ==> a[k] != pat[0]
    ensures ReplaceAll(a + b, pat, rep) == a + ReplaceAll(b, pat, rep)
  {
    if a != [] {
      var s := a + b;
      assert s[0] != pat[0];
      assert !OccursAt(s, 0, pat) by {
        if |pat| <= |s| {
          assert s[..|pat|][0] == s[0];
        }
      }
      assert ReplaceAll(s, pat, rep) == [s[0]] + ReplaceAll(s[1..], pat, rep);
      assert s[1..] == a[1..] + b;
      ReplaceAbsentPrefix(a[1..], b, pat, rep);
      assert a == [a[0]] + a[1..];
      assert [s[0]] + (a[1..] + ReplaceAll(b, pat, rep)) == a + ReplaceAll(b, pat, rep);
    } else {
      assert a + b == b;
    }
  }

  /** The first occurrence of the pattern (no occurrence starts before it) is
      replaced, the text in front of it is copied, and the search resumes after it. */
  lemma ReplaceOccurrence(a: string, b: string, pat: string, rep: string)
    requires |pat| > 0
    requires forall k :: 0 <= k < |a| ==> !OccursAt(a + pat + b, k, pat)
    ensures ReplaceAll(a + pat + b, pat, rep) == a + rep + ReplaceAll(b, pat, rep)
  {
    assert a + pat + b == a + (pat + b);
    ReplaceSkipsPrefix(a, pat + b, pat, rep);
    ReplaceAtStart(pat, b, rep);
  }

  /** Text in which no occurrence starts is copied, and the search goes on after it. */
  lemma {:induction false} ReplaceSkipsPrefix(a: string, x: string, pat: string, rep: string)
    requires |pat| > 0
    requires forall k :: 0 <= k < |a| ==> !OccursAt(a + x, k, pat)
    ensures ReplaceAll(a + x, pat, rep) == a + ReplaceAll(x, pat, rep)
    decreases |a|
  {
    if a == [] {
      assert a + x == x;
    } else {
      SkipShift(a, x, pat);
      ReplaceSkipsPrefix(a[1..], x, pat, rep);
      SkipStep(a, x, pat, rep);
    }
  }

  lemma SkipShift(a: string, x: string, pat: string)
    requires |a| > 0
    requires forall k :: 0 <= k < |a| ==> !OccursAt(a + x, k, pat)
    ensures forall k :: 0 <= k < |a| - 1 ==> !OccursAt(a[1..] + x, k, pat)
  {
    assert [a[0]] + (a[1..] + x) == a + x;
    forall k | 0 <= k < |a| - 1
      ensures !OccursAt(a[1..] + x, k, pat)
    {
      OccursShift([a[0]], a[1..] + x, k, pat);
    }
  }

  lemma SkipStep(a: string, x: string, pat: string, rep: string)
    requires |a| > 0 && |pat| > 0 && !OccursAt(a + x, 0, pat)
    requires ReplaceAll(a[1..] + x, pat, rep) == a[1..] + ReplaceAll(x, pat, rep)
    ensures ReplaceAll(a + x, pat, rep) == a + ReplaceAll(x, pat, rep)
  {
    assert (a + x)[1..] == a[1..] + x;
    ConsSplit(a, ReplaceAll(x, pat, rep));
  }

  /** An `&` that starts no entity does not hide the `&lt;` after it. */
  lemma LooseAmpThenLt(s: string)
    requires s == "AT&T &lt;"
    ensures ReplaceAll(s, "&lt;", "<") == "AT&T <"
  {
    var a, b := "AT&T ", "";
    assert s == a + "&lt;" + b;
    forall k | 0 <= k < |a|
      ensures !OccursAt(s, k, "&lt;")
    {
      assert s[k..k + 4][1] != "&lt;"[1] || s[k..k + 4][0] != '&';
    }
    ReplaceOccurrence(a, b, "&lt;", "<");
  }

  lemma ReplaceAtStart(pat: string, b: string, rep: string)
    requires |pat| > 0
    ensures ReplaceAll(pat + b, pat, rep) == rep + ReplaceAll(b, pat, rep)
  {
    assert (pat + b)[..|pat|] == pat;
    assert (pat + b)[|pat|..] == b;
  }

  lemma EscapedNbsp(s: string)
    requires s == "&lt;b&gt;"
    ensures ReplaceAll(s, "&nbsp;", " ") == s
  {
    assert !OccursAt(s, 0, "&nbsp;") by {
      assert s[0..6][1] != "&nbsp;"[1];
    }
    assert s[1..] == "lt;b" + "&gt;";
    ReplaceAbsentPrefix("lt;b", "&gt;", "&nbsp;", " ");
    ReplaceAbsent("gt;", "&nbsp;", " ");
  }

  lemma EscapedAmp(s: string)
    requires s == "&lt;b&gt;"
    ensures ReplaceAll(s, "&amp;", "&") == s
  {
    assert !OccursAt(s, 0, "&amp;") by {
      assert s[0..5][1] != "&amp;"[1];
    }
    assert s[1..] == "lt;b" + "&gt;";
    ReplaceAbsentPrefix("lt;b", "&gt;", "&amp;", "&");
    ReplaceAbsent("gt;", "&amp;", "&");
  }

  lemma EscapedLt(s: string)
    requires s == "&lt;b&gt;"
    ensures ReplaceAll(s, "&lt;", "<") == "<b&gt;"
  {
    assert OccursAt(s, 0, "&lt;");
    assert s[4..] == "b" + "&gt;";
    ReplaceAbsentPrefix("b", "&gt;", "&lt;", "<");
    assert !OccursAt("&gt;", 0, "&lt;") by {
      assert "&gt;"[1] != "&lt;"[1];
    }
    ReplaceAbsent("gt;", "&lt;", "<");
  }

  lemma EscapedGt()
    ensures ReplaceAll("<b&gt;", "&gt;", ">") == "<b>"
  {
    assert "<b&gt;" == "<b" + "&gt;";
    ReplaceAbsentPrefix("<b", "&gt;", "&gt;", ">");
    assert OccursAt("&gt;", 0, "&gt;");
  }
}

=== FILE: js_text.dfy ===
/**
 Character classes of JavaScript regular expressions as the extractor uses them:
 `\s` (white space and line terminators), `\d` (ASCII digits) and the ASCII-only
 case folding of a regex with the `i` flag and without the `u` flag, and the
 removal of all white space.
 */
module JsText {

  /** `\s`: the WhiteSpace and LineTerminator code points of ECMAScript, which are
      also exactly what `String.prototype.trim` removes. */
  predicate IsWs(c: char) {
    var n := c as int;
    || n == 0x09 || n == 0x0A || n == 0x0B || n == 0x0C || n == 0x0D
    || n == 0x20 || n == 0xA0 || n == 0x1680
    || (0x2000 <= n <= 0x200A)
    || n == 0x2028 || n == 0x2029 || n == 0x202F || n == 0x205F
    || n == 0x3000 || n == 0xFEFF
  }

  /** Among ASCII characters, `\s` is the space and the five controls from tab
      to carriage return; digits and letters are never white space. */
  lemma WsAscii(c: char)
    ensures c as int < 0x80 ==> (IsWs(c) <==> c == ' ' || '\t' <= c <= '\r')
    ensures IsDigit(c) || 'a' <= c <= 'z' || 'A' <= c <= 'Z' ==> !IsWs(c)
  {
  }

  /** `\d`: only the ASCII digits. */
  predicate IsDigit(c: char) {
    '0' <= c <= '9'
  }

  /** No character of `s` is white space. */
  predicate NoWs(s: string) {
    forall i :: 0 <= i < |s| ==> !IsWs(s[i])
  }

  /** Every character of `s` is an ASCII digit. */
  predicate AllDigits(s: string) {
    forall i :: 0 <= i < |s| ==> IsDigit(s[i])
  }

  /** Number of ASCII digits in `s`. */
  function DigitCount(s: string): nat {
    if s == [] then 0
    else (if IsDigit(s[0]) then 1 else 0) + DigitCount(s[1..])
  }

  /** Case folding of a non-Unicode `i` regex: only ASCII letters have a partner,
      since a character at or above 128 never folds onto one below 128. */
  function FoldCase(c: char): char {
    if 'a' <= c <= 'z' then (c as int - 32) as char else c
  }

  /** `c` matches the pattern character `p` under the `i` flag. */
  predicate CiEq(c: char, p: char) {
    FoldCase(c) == FoldCase(p)
  }

  /** `s` has the literal `lit` at position `i`, compared case-insensitively. */
  predicate CiAt(s: string, i: nat, lit: string) {
    i + |lit| <= |s| && forall k :: 0 <= k < |lit| ==> CiEq(s[i + k], lit[k])
  }

  /** `s` has exactly `w` at position `i`. */
  predicate OccursAt(s: string, i: nat, w: string) {
    i + |w| <= |s| && s[i..i + |w|] == w
  }

  /** `w` occurs somewhere in `s`. */
  predicate Contains(s: string, w: string) {
    exists i :: 0 <= i <= |s| && OccursAt(s, i, w)
  }

  lemma DigitCountAppend(a: string, b: string)
    ensures DigitCount(a + b) == DigitCount(a) + DigitCount(b)
  {
    if a == [] {
      assert a + b == b;
    } else {
      assert (a + b)[1..] == a[1..] + b;
      DigitCountAppend(a[1..], b);
    }
  }

  lemma DigitCountAll(s: string)
    requires AllDigits(s)
    ensures DigitCount(s) == |s|
  {
    if s != [] {
      DigitCountAll(s[1..]);
    }
  }

  lemma DigitCountNone(s: string)
    requires forall i :: 0 <= i < |s| ==> !IsDigit(s[i])
    ensures DigitCount(s) == 0
  {
    if s != [] {
      DigitCountNone(s[1..]);
    }
  }

  /** `n` ASCII digits start at `i`: `\d{n}` matches there. */
  predicate DigitsAt(s: string, i: nat, n: nat) {
    i + n <= |s| && forall k :: i <= k < i + n ==> IsDigit(s[k])
  }

  /** The characters in `[i, j)` are white space: `\s*` can span them. */
  predicate WsSpan(s: string, i: nat, j: nat) {
    i <= j <= |s| && forall k :: i <= k < j ==> IsWs(s[k])
  }

  /** `s.replace(/\s+/g, '')`: every run of white space is removed. */
  function StripWs(s: string): (r: string)
    ensures NoWs(r)
    ensures NoWs(s) ==> r == s
    ensures |r| <= |s|
  {
    if s == [] then []
    else if IsWs(s[0]) then StripWs(s[1..])
    else [s[0]] + StripWs(s[1..])
  }

  /** Removing white space splits over concatenation: each character is kept or
      dropped on its own, so the non-space characters keep their order. */
  lemma {:induction false} StripWsAppend(a: string, b: string)
    ensures StripWs(a + b) == StripWs(a) + StripWs(b)
  {
    if a == [] {
      assert a + b == b;
    } else {
      assert (a + b)[1..] == a[1..] + b;
      StripWsAppend(a[1..], b);
    }
  }

  /** Every character left after stripping was in the input and is not white space. */
  lemma {:induction false} StripWsFrom(s: string)
    ensures forall k :: 0 <= k < |StripWs(s)| ==> StripWs(s)[k] in s && !IsWs(StripWs(s)[k])
  {
    if s != [] {
      StripWsFrom(s[1..]);
      assert forall c :: c in s[1..] ==> c in s;
    }
  }

  /** Stripping twice strips nothing more. */
  lemma StripWsIdempotent(s: string)
    ensures StripWs(StripWs(s)) == StripWs(s)
  {
  }
}

=== FILE: mc_number.dfy ===
/**
 The MC-number part of `extractOne`: four case-insensitive patterns tried in
 list order, the first one that matches anywhere in the raw markup supplies the
 digits of its capture group, written as `MC-` and the digits; when none
 matches, the loose pattern is tried once more as a fallback.
 */
module McNumber {
  import opened Wrappers
  import opened JsText

  /** The digits a pattern captured: `len` characters from `start`. */
  datatype Capture = Capture(start: nat, len: nat)

  /** The `n` characters from `i` are all ASCII digits. */
  predicate DigitsFrom(s: string, i: nat, n: nat)
    decreases n
  {
    i + n <= |s| && (n == 0 || (IsDigit(s[i]) && DigitsFrom(s, i + 1, n - 1)))
  }

  /** The recursive form used by the greedy scanner and the quantified
      `DigitsAt` agree. */
  lemma {:induction false} DigitsFromAll(s: string, i: nat, n: nat)
    requires DigitsFrom(s, i, n)
    ensures DigitsAt(s, i, n)
    decreases n
  {
    if n > 0 {
      DigitsFromAll(s, i + 1, n - 1);
    }
  }

  lemma {:induction false} AllDigitsFrom(s: string, i: nat, n: nat)
    requires DigitsAt(s, i, n)
    ensures DigitsFrom(s, i, n)
    decreases n
  {
    if n > 0 {
      AllDigitsFrom(s, i + 1, n - 1);
    }
  }

  /** A capture of `\d{3,7}` inside `s`. */
  predicate ValidCapture(s: string, c: Capture) {
    3 <= c.len <= 7 && c.start + c.len <= |s| && DigitsFrom(s, c.start, c.len)
  }

  /** `[-\s]`. */
  predicate IsDashOrWs(c: char) {
    c == '-' || IsWs(c)
  }

  /** Length of the run of digits at `i`, cut off at `max`. */
  function DigitRun(s: string, i: nat, max: nat): (n: nat)
    requires i <= |s|
    ensures n <= max && i + n <= |s| && DigitsFrom(s, i, n)
    ensures n == max || i + n == |s| || !IsDigit(s[i + n])
    decreases max
  {
    if max == 0 || i == |s| || !IsDigit(s[i]) then 0 else 1 + DigitRun(s, i + 1, max - 1)
  }

  /** `(\d{3,7})` at `i`, greedy: as many digits as there are, up to seven. */
  function GreedyDigits(s: string, i: nat): (r: Option<Capture>)
    requires i <= |s|
    ensures r.Some? ==> ValidCapture(s, r.value) && r.value.start == i
  {
    var n := DigitRun(s, i, 7);
    if n < 3 then None else Some(Capture(i, n))
  }

  /** `\s*` from `i`: the end of the white space run. */
  function SkipWs(s: string, i: nat): (j: nat)
    requires i <= |s|
    ensures i <= j <= |s|
    ensures j < |s| ==> !IsWs(s[j])
    decreases |s| - i
  {
    if i < |s| && IsWs(s[i]) then SkipWs(s, i + 1) else i
  }

  /** `MC[-\s]?(\d{3,7})` tried at `p`. The optional `[-\s]` is taken when present:
      leaving it out would need a digit in its place, which it is not. */
  function LooseAt(s: string, p: nat): (r: Option<Capture>)
    requires p <= |s|
    ensures r.Some? ==> LooseAdmits(s, p, r.value)
  {
    if !CiAt(s, p, "MC") then None
    else
      var q := if p + 2 < |s| && IsDashOrWs(s[p + 2]) then p + 3 else p + 2;
      GreedyDigits(s, q)
  }

  /** The four patterns of the list, from the loosest to the most labelled. */
  datatype Pattern =
    | Loose          // /MC[-\s]?(\d{3,7})/i
    | FfNumbers      // /MC\/MX\/FF Number\(s\):\s*MC[-\s]?(\d{3,7})/i
    | MxNumberMc     // /MC\/MX Number:\s*MC[-\s]?(\d{3,7})/i
    | MxNumberBare   // /MC\/MX Number:\s*(\d{3,7})/i

  const FfLabel: string := "MC/MX/FF Number(s):"
  const MxLabel: string := "MC/MX Number:"

  /** `pat` tried at exactly `p`. */
  function MatchAt(pat: Pattern, s: string, p: nat): (r: Option<Capture>)
    requires p <= |s|
    ensures r.Some? ==> ValidCapture(s, r.value) && p < r.value.start
  {
    match pat
    case Loose => LooseAt(s, p)
    case FfNumbers =>
      if CiAt(s, p, FfLabel) then LooseAt(s, SkipWs(s, p + |FfLabel|)) else None
    case MxNumberMc =>
      if CiAt(s, p, MxLabel) then LooseAt(s, SkipWs(s, p + |MxLabel|)) else None
    case MxNumberBare =>
      if CiAt(s, p, MxLabel) then GreedyDigits(s, SkipWs(s, p + |MxLabel|)) else None
  }

  /** The text a capture holds. */
  function Captured(s: string, c: Capture): (d: string)
    requires ValidCapture(s, c)
    ensures 3 <= |d| <= 7 && AllDigits(d)
  {
    DigitsFromAll(s, c.start, c.len);
    s[c.start..c.start + c.len]
  }

  /** `[f(0), ..., f(n - 1)]`. */
  function Tabulate<T>(f: nat -> T, n: nat): (ms: seq<T>)
    ensures |ms| == n
  {
    if n == 0 then [] else Tabulate(f, n - 1) + [f(n - 1)]
  }

  lemma {:induction false} TabulateAt<T>(f: nat -> T, n: nat, q: nat)
    requires q < n
    ensures Tabulate(f, n)[q] == f(q)
    decreases n
  {
    if q < n - 1 {
      TabulateAt(f, n - 1, q);
    }
  }

  /** `MatchAt`, with no match past the end of `s`. */
  function MatchWithin(pat: Pattern, s: string, q: nat): Option<Capture> {
    if q <= |s| then MatchAt(pat, s, q) else None
  }

  /** `pat` tried at every position of `s`, end included. */
  function Attempts(pat: Pattern, s: string): (ms: seq<Option<Capture>>)
    ensures |ms| == |s| + 1
  {
    Tabulate(q => MatchWithin(pat, s, q), |s| + 1)
  }

  /** Entry `q` of the attempts is the match of `pat` at `q`. */
  lemma AttemptAt(pat: Pattern, s: string, q: nat)
    requires q <= |s|
    ensures Attempts(pat, s)[q] == MatchAt(pat, s, q)
  {
    TabulateAt(q => MatchWithin(pat, s, q), |s| + 1, q);
  }

  /** The first index from `i` on that holds a value. */
  function FirstHit<T>(ms: seq<Option<T>>, i: nat): (r: Option<nat>)
    requires i <= |ms|
    ensures r.Some? ==> i <= r.value < |ms| && ms[r.value].Some?
    decreases |ms| - i
  {
    if i == |ms| then None
    else if ms[i].Some? then Some(i)
    else FirstHit(ms, i + 1)
  }

  /** `FirstHit` fails exactly when no index from `i` on holds a value. */
  lemma {:induction false} FirstHitNone<T>(ms: seq<Option<T>>, i: nat)
    requires i <= |ms|
    ensures FirstHit(ms, i).None? <==> forall q :: i <= q < |ms| ==> ms[q].None?
    decreases |ms| - i
  {
    if i < |ms| {
      FirstHitNone(ms, i + 1);
    }
  }

  /** `FirstHit` reports the first index that holds a value. */
  lemma {:induction false} FirstHitAt<T>(ms: seq<Option<T>>, i: nat, p: nat)
    requires i <= p < |ms| && ms[p].Some?
    requires forall q :: i <= q < p ==> ms[q].None?
    ensures FirstHit(ms, i) == Some(p)
    decreases p - i
  {
    if i < p {
      FirstHitAt(ms, i + 1, p);
    }
  }

  /** `s.match(pat)?.[1]`: the digits the leftmost match captured, if any. */
  function Search(pat: Pattern, s: string): (r: Option<string>)
    ensures r.Some? ==> 3 <= |r.value| <= 7 && AllDigits(r.value)
  {
    var ms := Attempts(pat, s);
    match FirstHit(ms, 0)
    case None => None
    case Some(q) =>
      AttemptAt(pat, s, q);
      Some(Captured(s, ms[q].value))
  }

  /** The search fails exactly when the pattern matches nowhere. */
  lemma SearchNone(pat: Pattern, s: string)
    ensures Search(pat, s).None? <==> forall q :: 0 <= q <= |s| ==> MatchAt(pat, s, q).None?
  {
    FirstHitNone(Attempts(pat, s), 0);
    forall q | 0 <= q <= |s|
      ensures Attempts(pat, s)[q] == MatchAt(pat, s, q)
    {
      AttemptAt(pat, s, q);
    }
  }

  /** The digits of the first pattern of `pats` that matches somewhere in `s`. */
  function FirstMatch(pats: seq<Pattern>, s: string): (r: Option<string>)
    ensures r.Some? ==> 3 <= |r.value| <= 7 && AllDigits(r.value)
  {
    FirstMatchFrom(pats, s, 0)
  }

  /** `FirstMatch` over the patterns from index `i` on. */
  function FirstMatchFrom(pats: seq<Pattern>, s: string, i: nat): (r: Option<string>)
    requires i <= |pats|
    ensures r.Some? ==> 3 <= |r.value| <= 7 && AllDigits(r.value)
    decreases |pats| - i
  {
    if i == |pats| then None
    else
      var here := Search(pats[i], s);
      if here.Some? then here else FirstMatchFrom(pats, s, i + 1)
  }

  /** `FirstMatch` finds nothing exactly when no pattern of the list matches,
      and otherwise reports the capture of the first pattern that does. */
  lemma FirstMatchIsFirst(pats: seq<Pattern>, s: string)
    ensures FirstMatch(pats, s).None? <==> forall i :: 0 <= i < |pats| ==> Search(pats[i], s).None?
    ensures FirstMatch(pats, s).Some? ==> exists i :: (0 <= i < |pats| && Search(pats[i], s) == FirstMatch(pats, s)
      && forall j :: 0 <= j < i ==> Search(pats[j], s).None?)
  {
    FirstMatchFromIsFirst(pats, s, 0);
  }

  lemma {:induction false} FirstMatchFromIsFirst(pats: seq<Pattern>, s: string, k: nat)
    requires k <= |pats|
    ensures FirstMatchFrom(pats, s, k).None? <==> forall i :: k <= i < |pats| ==> Search(pats[i], s).None?
    ensures FirstMatchFrom(pats, s, k).Some? ==> exists i :: (k <= i < |pats| && Search(pats[i], s) == FirstMatchFrom(pats, s, k)
      && forall j :: k <= j < i ==> Search(pats[j], s).None?)
    decreases |pats| - k
  {
    if k < |pats| && Search(pats[k], s).None? {
      FirstMatchFromIsFirst(pats, s, k + 1);
    }
  }

  /** Trying a list from `i` is trying pattern `i`, then the rest. */
  lemma FirstMatchStep(pats: seq<Pattern>, s: string, i: nat)
    requires i < |pats|
    ensures FirstMatchFrom(pats, s, i) ==
      if Search(pats[i], s).Some? then Search(pats[i], s) else FirstMatchFrom(pats, s, i + 1)
  {
  }

  /** The result is empty or `MC-` followed by three to seven ASCII digits. */
  predicate WellFormed(r: string) {
    r == "" || (6 <= |r| <= 10 && r[..3] == "MC-" && AllDigits(r[3..]))
  }

  /** `'MC-' + digits`, or the empty string when nothing was captured. */
  function FormatOr(d: Option<string>): (r: string)
    ensures r == "" <==> d.None?
    ensures d.Some? ==> |r| == |d.value| + 3 && r[..3] == "MC-" && r[3..] == d.value
    ensures (d.Some? ==> 3 <= |d.value| <= 7 && AllDigits(d.value)) ==> WellFormed(r)
  {
    match d
    case Some(digits) =>
      var r := "MC-" + digits;
      assert r[3..] == digits;
      r
    case None => ""
  }

  /** The pattern list in the order `extractOne` declares it. */
  const SourceOrder: seq<Pattern> := [Loose, FfNumbers, MxNumberMc, MxNumberBare]

  /** The MC number of `extractOne` as written: first match over the list, then
      the loose pattern again as a fallback. */
  function McNumberAsWritten(html: string): (r: string)
    ensures WellFormed(r)
  {
    match FirstMatch(SourceOrder, html)
    case Some(d) => FormatOr(Some(d))
    case None => FormatOr(Search(Loose, html))
  }

  /** Both labelled patterns that end in `MC...` contain a loose match, so they
      can only match where the loose pattern matches too. */
  lemma LabelledNeedsLoose(pat: Pattern, s: string)
    requires pat == FfNumbers || pat == MxNumberMc
    ensures Search(pat, s).Some? ==> Search(Loose, s).Some?
  {
    SearchNone(pat, s);
    SearchNone(Loose, s);
    if Search(pat, s).Some? {
      var p :| 0 <= p <= |s| && MatchAt(pat, s, p).Some?;
      var q := LabelledAt(pat, s, p);
    }
  }

  /** A labelled match at `p` holds a loose match after the label. */
  lemma LabelledAt(pat: Pattern, s: string, p: nat) returns (q: nat)
    requires pat == FfNumbers || pat == MxNumberMc
    requires p <= |s| && MatchAt(pat, s, p).Some?
    ensures q <= |s| && MatchAt(Loose, s, q).Some?
  {
    if pat == FfNumbers {
      q := SkipWs(s, p + |FfLabel|);
    } else {
      q := SkipWs(s, p + |MxLabel|);
    }
  }

  /** Because the loose pattern comes first, the list decides as the loose
      pattern does whenever that matches; otherwise only the bare
      `MC/MX Number:` pattern can still match. The other two labelled patterns
      and the fallback never change the outcome. */
  lemma {:induction false} LooseFirstDecides(html: string)
    ensures McNumberAsWritten(html) ==
      if Search(Loose, html).Some? then FormatOr(Search(Loose, html))
      else FormatOr(Search(MxNumberBare, html))
  {
    LabelledNeedsLoose(FfNumbers, html);
    LabelledNeedsLoose(MxNumberMc, html);
    var o := SourceOrder;
    FirstMatchStep(o, html, 0);
    FirstMatchStep(o, html, 1);
    FirstMatchStep(o, html, 2);
    FirstMatchStep(o, html, 3);
  }

  /** The MC number of a page where the loose regex can match is `MC-` and the
      greedy capture after the leftmost `MC` (in any case) at which it can. */
  lemma LooseLeftmostDecides(html: string, p: nat, c: Capture)
    requires p <= |html| && LooseAdmits(html, p, c)
    requires forall q, d :: 0 <= q < p ==> !LooseAdmits(html, q, d)
    ensures LooseAt(html, p).Some? && LooseAt(html, p).value.start == c.start
    ensures McNumberAsWritten(html) == "MC-" + Captured(html, LooseAt(html, p).value)
  {
    SearchSpec(Loose, html, p, c);
    LooseFirstDecides(html);
  }

  /** `match` in regex terms: the leftmost position where the regex can match
      decides, and the scanner's capture there starts where the regex's does. */
  lemma SearchSpec(pat: Pattern, s: string, p: nat, c: Capture)
    requires p <= |s| && Admits(pat, s, p, c)
    requires forall q, d :: 0 <= q < p ==> !Admits(pat, s, q, d)
    ensures MatchAt(pat, s, p).Some? && MatchAt(pat, s, p).value.start == c.start
    ensures Search(pat, s) == Some(Captured(s, MatchAt(pat, s, p).value))
  {
    MatchAtComplete(pat, s, p, c);
    forall q | 0 <= q < p
      ensures MatchAt(pat, s, q).None?
    {
      MatchAtSound(pat, s, q);
    }
    SearchLeftmost(pat, s, p);
  }

  /** The line-101 fallback retries the first pattern of the list, which has
      already failed whenever the fallback runs. */
  lemma FallbackIsDead(html: string)
    ensures FirstMatch(SourceOrder, html).None? ==> Search(Loose, html).None?
  {
    FirstMatchIsFirst(SourceOrder, html);
    assert SourceOrder[0] == Loose;
  }

  /** A match of `MC[-\s]?(\d{3,7})` at `p` with capture `c`, in any of the ways
      the regex allows before greediness picks one. */
  predicate LooseAdmits(s: string, p: nat, c: Capture) {
    && CiAt(s, p, "MC")
    && (c.start == p + 2 || (c.start == p + 3 && p + 2 < |s| && IsDashOrWs(s[p + 2])))
    && ValidCapture(s, c)
  }

  lemma DigitRunAtLeast(s: string, i: nat, max: nat, n: nat)
    requires i <= |s| && n <= max && DigitsFrom(s, i, n)
    ensures DigitRun(s, i, max) >= n
    decreases max
  {
    if n > 0 {
      DigitRunAtLeast(s, i + 1, max - 1, n - 1);
    }
  }

  /** Whenever the loose pattern can match at `p`, `LooseAt` finds a match there
      with the same start and the longest capture: seven digits or all the
      digits that follow. */
  lemma LooseGreedy(s: string, p: nat, c: Capture)
    requires p <= |s| && LooseAdmits(s, p, c)
    ensures LooseAt(s, p).Some?
    ensures LooseAdmits(s, p, LooseAt(s, p).value)
    ensures LooseAt(s, p).value.start == c.start && LooseAt(s, p).value.len >= c.len
    ensures var m := LooseAt(s, p).value;
      m.len == 7 || m.start + m.len == |s| || !IsDigit(s[m.start + m.len])
  {
    LooseStart(s, p, c);
    DigitRunAtLeast(s, c.start, 7, c.len);
  }

  /** The optional `[-\s]` is taken exactly when it is there, since a digit is not one. */
  lemma LooseStart(s: string, p: nat, c: Capture)
    requires p <= |s| && LooseAdmits(s, p, c)
    ensures (if p + 2 < |s| && IsDashOrWs(s[p + 2]) then p + 3 else p + 2) == c.start
  {
    if c.start == p + 2 && p + 2 < |s| {
      assert IsDigit(s[p + 2]);
    }
  }

  /** A match of `pat` at `p` with capture `c`, in any of the ways the regex
      allows: the label, case-insensitively, then white space, then the loose
      pattern or the bare digits. */
  ghost predicate Admits(pat: Pattern, s: string, p: nat, c: Capture) {
    match pat
    case Loose => LooseAdmits(s, p, c)
    case FfNumbers =>
      CiAt(s, p, FfLabel) && exists q :: WsSpan(s, p + |FfLabel|, q) && LooseAdmits(s, q, c)
    case MxNumberMc =>
      CiAt(s, p, MxLabel) && exists q :: WsSpan(s, p + |MxLabel|, q) && LooseAdmits(s, q, c)
    case MxNumberBare =>
      CiAt(s, p, MxLabel) && WsSpan(s, p + |MxLabel|, c.start) && ValidCapture(s, c)
  }

  /** What the scanner reports at `p` is a match the regex allows there. */
  lemma MatchAtSound(pat: Pattern, s: string, p: nat)
    requires p <= |s|
    ensures MatchAt(pat, s, p).Some? ==> Admits(pat, s, p, MatchAt(pat, s, p).value)
  {
    match pat
    case Loose =>
    case FfNumbers =>
      if MatchAt(pat, s, p).Some? {
        LooseAfterWs(s, p + |FfLabel|, MatchAt(pat, s, p).value);
      }
    case MxNumberMc =>
      if MatchAt(pat, s, p).Some? {
        LooseAfterWs(s, p + |MxLabel|, MatchAt(pat, s, p).value);
      }
    case MxNumberBare =>
      if MatchAt(pat, s, p).Some? {
        SkipWsSpan(s, p + |MxLabel|);
      }
  }

  /** White space then what the scanner takes as a loose match. */
  lemma LooseAfterWs(s: string, i: nat, c: Capture)
    requires i <= |s| && LooseAt(s, SkipWs(s, i)) == Some(c)
    ensures exists q :: WsSpan(s, i, q) && LooseAdmits(s, q, c)
  {
    var q := SkipWs(s, i);
    SkipWsSpan(s, i);
    assert WsSpan(s, i, q);
    assert LooseAdmits(s, q, c);
  }

  /** Whenever the regex allows a match of `pat` at `p`, the scanner finds one
      there with the same start and a capture at least as long. */
  lemma MatchAtComplete(pat: Pattern, s: string, p: nat, c: Capture)
    requires p <= |s| && Admits(pat, s, p, c)
    ensures MatchAt(pat, s, p).Some?
    ensures MatchAt(pat, s, p).value.start == c.start && MatchAt(pat, s, p).value.len >= c.len
  {
    match pat
    case Loose =>
      LooseGreedy(s, p, c);
    case FfNumbers =>
      var q :| WsSpan(s, p + |FfLabel|, q) && LooseAdmits(s, q, c);
      LabelThenLoose(s, p + |FfLabel|, q, c);
    case MxNumberMc =>
      var q :| WsSpan(s, p + |MxLabel|, q) && LooseAdmits(s, q, c);
      LabelThenLoose(s, p + |MxLabel|, q, c);
    case MxNumberBare =>
      LabelThenDigits(s, p + |MxLabel|, c);
  }

  /** After a label, white space and then `MC`: the scanner stops at the `M`. */
  lemma LabelThenLoose(s: string, i: nat, q: nat, c: Capture)
    requires WsSpan(s, i, q) && q <= |s| && LooseAdmits(s, q, c)
    ensures SkipWs(s, i) == q
    ensures LooseAt(s, q).Some? && LooseAt(s, q).value.start == c.start && LooseAt(s, q).value.len >= c.len
  {
    assert CiEq(s[q + 0], "MC"[0]);
    SkipWsAt(s, i, q);
    LooseGreedy(s, q, c);
  }

  /** After a label, white space and then digits: the scanner stops at the first digit. */
  lemma LabelThenDigits(s: string, i: nat, c: Capture)
    requires WsSpan(s, i, c.start) && ValidCapture(s, c)
    ensures SkipWs(s, i) == c.start
    ensures GreedyDigits(s, c.start).Some? && GreedyDigits(s, c.start).value.len >= c.len
  {
    assert IsDigit(s[c.start]);
    SkipWsAt(s, i, c.start);
    DigitRunAtLeast(s, c.start, 7, c.len);
  }

  lemma {:induction false} SkipWsSpan(s: string, i: nat)
    requires i <= |s|
    ensures WsSpan(s, i, SkipWs(s, i))
    decreases |s| - i
  {
    if i < |s| && IsWs(s[i]) {
      SkipWsSpan(s, i + 1);
    }
  }

  lemma {:induction false} SkipWsAt(s: string, i: nat, q: nat)
    requires WsSpan(s, i, q) && q < |s| && !IsWs(s[q])
    ensures SkipWs(s, i) == q
    decreases q - i
  {
    if i < q {
      SkipWsAt(s, i + 1, q);
    }
  }

  /** `MC/MX Number: 123456` has no loose match, since `MC` is followed by `/`,
      yet the list finds `MC-123456` through the bare `MC/MX Number:` pattern:
      the list does not reduce to the loose pattern alone. */
  lemma BareLabelWithoutLoose()
    ensures Search(Loose, "MC/MX Number: 123456").None?
    ensures McNumberAsWritten("MC/MX Number: 123456") == "MC-123456"
  {
    BareLabelExample("MC/MX Number: 123456");
  }

  lemma BareLabelExample(s: string)
    requires s == "MC/MX Number: 123456"
    ensures Search(Loose, s).None?
    ensures McNumberAsWritten(s) == "MC-123456"
  {
    NoLooseMatch(s);
    NowhereFound(Loose, s);
    BareMatch(s);
    AttemptAt(MxNumberBare, s, 0);
    FoundFirst(MxNumberBare, s, 0);
    BareOnly(s, "123456");
    assert "MC-" + "123456" == "MC-123456";
  }

  /** With no loose match, the bare labelled pattern alone decides. */
  lemma BareOnly(s: string, d: string)
    requires Search(Loose, s).None? && Search(MxNumberBare, s) == Some(d)
    ensures McNumberAsWritten(s) == "MC-" + d
  {
    LooseFirstDecides(s);
  }

  lemma NoLooseMatch(s: string)
    requires s == "MC/MX Number: 123456"
    ensures forall q :: 0 <= q <= |s| ==> MatchAt(Loose, s, q).None?
  {
    assert forall k :: 0 <= k < |s| && FoldCase(s[k]) == 'C' ==> k == 1;
    forall q | 0 <= q <= |s|
      ensures MatchAt(Loose, s, q).None?
    {
      if q == 0 {
        assert DigitRun(s, 2, 7) == 0;
      } else if q + 1 < |s| {
        assert !CiEq(s[q + 1], "MC"[1]);
      }
    }
  }

  lemma BareMatch(s: string)
    requires s == "MC/MX Number: 123456"
    ensures MatchAt(MxNumberBare, s, 0) == Some(Capture(14, 6)) && s[14..20] == "123456"
  {
    assert s[..13] == MxLabel;
    CiAtExact(s, 0, MxLabel);
    assert SkipWs(s, 13) == 14;
    DigitRunToEnd(s, 14, 7);
  }

  /** An exact occurrence is also a case-insensitive one. */
  lemma CiAtExact(s: string, i: nat, lit: string)
    requires i + |lit| <= |s| && s[i..i + |lit|] == lit
    ensures CiAt(s, i, lit)
  {
    forall k | 0 <= k < |lit|
      ensures CiEq(s[i + k], lit[k])
    {
      assert s[i..i + |lit|][k] == s[i + k];
    }
  }

  /** A run of digits to the end of the text, within the cut-off, is taken whole. */
  lemma DigitRunToEnd(s: string, i: nat, max: nat)
    requires i <= |s| && |s| - i <= max
    requires forall k :: i <= k < |s| ==> IsDigit(s[k])
    ensures DigitRun(s, i, max) == |s| - i
    decreases |s| - i
  {
    if i < |s| {
      DigitRunToEnd(s, i + 1, max - 1);
    }
  }

  // ---- the labelled-first ranking ----

  /** Labelled patterns from the most to the least specific; the loose pattern
      serves only as the fallback. */
  const RankedOrder: seq<Pattern> := [FfNumbers, MxNumberMc, MxNumberBare]

  /** The MC number with the list in its evidently intended order. */
  function McNumberRanked(html: string): (r: string)
    ensures WellFormed(r)
  {
    match FirstMatch(RankedOrder, html)
    case Some(d) => FormatOr(Some(d))
    case None => FormatOr(Search(Loose, html))
  }

  /** A labelled match decides the ranked result, wherever in the page a loose
      match occurs; the loose pattern decides only when no label matches. */
  lemma RankedPrefersLabels(html: string)
    ensures Search(FfNumbers, html).Some? ==>
      McNumberRanked(html) == FormatOr(Search(FfNumbers, html))
    ensures Search(FfNumbers, html).None? && Search(MxNumberMc, html).Some? ==>
      McNumberRanked(html) == FormatOr(Search(MxNumberMc, html))
    ensures Search(FfNumbers, html).None? && Search(MxNumberMc, html).None? ==>
      McNumberRanked(html) ==
        if Search(MxNumberBare, html).Some? then FormatOr(Search(MxNumberBare, html))
        else FormatOr(Search(Loose, html))
  {
    RankedClosedForm(html);
  }

  /** The ranked list tried pattern by pattern. */
  lemma RankedClosedForm(html: string)
    ensures FirstMatch(RankedOrder, html) ==
      if Search(FfNumbers, html).Some? then Search(FfNumbers, html)
      else if Search(MxNumberMc, html).Some? then Search(MxNumberMc, html)
      else Search(MxNumberBare, html)
  {
    var o := RankedOrder;
    FirstMatchStep(o, html, 0);
    FirstMatchStep(o, html, 1);
    FirstMatchStep(o, html, 2);
  }

  /** The ranked and the as-written lists find an MC number on exactly the same pages. */
  lemma RankedFindsSamePages(html: string)
    ensures McNumberRanked(html) == "" <==> McNumberAsWritten(html) == ""
  {
    RankedPrefersLabels(html);
    LooseFirstDecides(html);
    LabelledNeedsLoose(FfNumbers, html);
    LabelledNeedsLoose(MxNumberMc, html);
  }

  /** `MC-100 MC/MX Number: 200`: the source's order reports the unlabelled
      `MC-100`, the intended ranking the labelled `MC-200`. */
  lemma LooseFirstHidesLabel()
    ensures McNumberAsWritten("MC-100 MC/MX Number: 200") == "MC-100"
    ensures McNumberRanked("MC-100 MC/MX Number: 200") == "MC-200"
  {
    HiddenLabelExample("MC-100 MC/MX Number: 200");
  }

  lemma HiddenLabelExample(s: string)
    requires s == "MC-100 MC/MX Number: 200"
    ensures McNumberAsWritten(s) == "MC-100"
    ensures McNumberRanked(s) == "MC-200"
  {
    HiddenSearches(s);
    LooseFirstDecides(s);
    RankedPrefersLabels(s);
    assert "MC-" + "100" == "MC-100" && "MC-" + "200" == "MC-200";
  }

  lemma HiddenSearches(s: string)
    requires s == "MC-100 MC/MX Number: 200"
    ensures Search(Loose, s) == Some("100")
    ensures Search(FfNumbers, s).None? && Search(MxNumberMc, s).None?
    ensures Search(MxNumberBare, s) == Some("200")
  {
    HiddenLoose(s);
    AttemptAt(Loose, s, 0);
    FoundFirst(Loose, s, 0);
    HiddenNoFf(s);
    NowhereFound(FfNumbers, s);
    HiddenLabelOnlyAt7(s);
    HiddenMxMc(s);
    NowhereFound(MxNumberMc, s);
    HiddenMxBare(s);
    AttemptAt(MxNumberBare, s, 7);
    NoneBefore(MxNumberBare, s, 7);
    FoundFirst(MxNumberBare, s, 7);
  }

  lemma HiddenLoose(s: string)
    requires s == "MC-100 MC/MX Number: 200"
    ensures MatchAt(Loose, s, 0) == Some(Capture(3, 3)) && s[3..6] == "100"
  {
    HiddenLooseChars(s);
    LooseWithDash(s, 0, 3);
  }

  lemma HiddenLooseChars(s: string)
    requires s == "MC-100 MC/MX Number: 200"
    ensures CiAt(s, 0, "MC") && IsDashOrWs(s[2]) && DigitsFrom(s, 3, 3) && !IsDigit(s[6])
    ensures s[3..6] == "100"
  {
    var a := "MC-100 ";
    assert s == a + s[7..];
    LooseHead(a, s[7..]);
  }

  lemma LooseHead(a: string, b: string)
    requires a == "MC-100 "
    ensures var s := a + b; CiAt(s, 0, "MC") && IsDashOrWs(s[2]) && DigitsFrom(s, 3, 3) && !IsDigit(s[6])
    ensures (a + b)[3..6] == "100"
  {
    var s := a + b;
    assert s[0] == 'M' && s[1] == 'C' && s[2] == '-';
    assert s[3] == '1' && s[4] == '0' && s[5] == '0' && s[6] == ' ';
    CiAtExact(s, 0, "MC");
  }

  /** `MC`, a dash and a run of `n` digits cut short of seven: the loose
      pattern captures exactly that run. */
  lemma LooseWithDash(s: string, p: nat, n: nat)
    requires CiAt(s, p, "MC") && p + 3 + n < |s| && IsDashOrWs(s[p + 2])
    requires 3 <= n < 7 && DigitsFrom(s, p + 3, n) && !IsDigit(s[p + 3 + n])
    ensures LooseAt(s, p) == Some(Capture(p + 3, n))
  {
    DigitRunExact(s, p + 3, 7, n);
  }

  lemma {:induction false} DigitRunExact(s: string, i: nat, max: nat, n: nat)
    requires i + n < |s| && n < max && DigitsFrom(s, i, n) && !IsDigit(s[i + n])
    ensures DigitRun(s, i, max) == n
    decreases n
  {
    if n > 0 {
      DigitRunExact(s, i + 1, max - 1, n - 1);
    }
  }

  lemma HiddenNoFf(s: string)
    requires s == "MC-100 MC/MX Number: 200"
    ensures forall q :: 0 <= q <= |s| ==> MatchAt(FfNumbers, s, q).None?
  {
    assert forall k :: 0 <= k < |s| ==> FoldCase(s[k]) != 'F';
    forall q | 0 <= q <= |s|
      ensures MatchAt(FfNumbers, s, q).None?
    {
      if q + 6 < |s| {
        assert !CiEq(s[q + 6], FfLabel[6]);
      }
    }
  }

  /** The label occurs once, at position 7, followed by `200`. */
  lemma HiddenLabelOnlyAt7(s: string)
    requires s == "MC-100 MC/MX Number: 200"
    ensures CiAt(s, 7, MxLabel) && SkipWs(s, 20) == 21
    ensures forall q :: 0 <= q <= |s| && q != 7 ==> !CiAt(s, q, MxLabel)
  {
    HiddenLabelAt7(s);
    HiddenSlashAt9(s);
    forall q | 0 <= q <= |s| && q != 7
      ensures !CiAt(s, q, MxLabel)
    {
      if q + 2 < |s| {
        assert !CiEq(s[q + 2], MxLabel[2]);
      }
    }
  }

  lemma HiddenLabelAt7(s: string)
    requires s == "MC-100 MC/MX Number: 200"
    ensures CiAt(s, 7, MxLabel) && SkipWs(s, 20) == 21
  {
    var a, b := "MC-100 ", "MC/MX Number: 200";
    assert s == a + b;
    assert s[7..20] == MxLabel;
    CiAtExact(s, 7, MxLabel);
    assert s[20] == ' ' && s[21] == '2';
  }

  /** The only `/` is at position 9. */
  lemma HiddenSlashAt9(s: string)
    requires s == "MC-100 MC/MX Number: 200"
    ensures forall k :: 0 <= k < |s| && FoldCase(s[k]) == '/' ==> k == 9
  {
    var a, b := "MC-100 MC", "/MX Number: 200";
    assert s == a + b;
    assert forall k :: 0 <= k < |a| ==> FoldCase(a[k]) != '/';
    assert forall k :: 1 <= k < |b| ==> FoldCase(b[k]) != '/';
  }

  lemma HiddenMxMc(s: string)
    requires s == "MC-100 MC/MX Number: 200"
    requires CiAt(s, 7, MxLabel) && SkipWs(s, 20) == 21
    requires forall q :: 0 <= q <= |s| && q != 7 ==> !CiAt(s, q, MxLabel)
    ensures forall q :: 0 <= q <= |s| ==> MatchAt(MxNumberMc, s, q).None?
  {
    forall q | 0 <= q <= |s|
      ensures MatchAt(MxNumberMc, s, q).None?
    {
      if q == 7 {
        assert !CiEq(s[21], "MC"[0]);
      }
    }
  }

  lemma HiddenMxBare(s: string)
    requires s == "MC-100 MC/MX Number: 200"
    requires CiAt(s, 7, MxLabel) && SkipWs(s, 20) == 21
    requires forall q :: 0 <= q <= |s| && q != 7 ==> !CiAt(s, q, MxLabel)
    ensures MatchAt(MxNumberBare, s, 7) == Some(Capture(21, 3)) && s[21..24] == "200"
    ensures forall q :: 0 <= q < 7 ==> MatchAt(MxNumberBare, s, q).None?
  {
    DigitRunToEnd(s, 21, 7);
  }

  /** No match at any position: the search finds nothing. */
  lemma NowhereFound(pat: Pattern, s: string)
    requires forall q :: 0 <= q <= |s| ==> MatchAt(pat, s, q).None?
    ensures Search(pat, s).None?
  {
    SearchNone(pat, s);
  }

  /** The first position with a match decides the search. */
  lemma FoundFirst(pat: Pattern, s: string, p: nat)
    requires p <= |s| && Attempts(pat, s)[p].Some?
    requires forall q :: 0 <= q < p ==> Attempts(pat, s)[q].None?
    ensures ValidCapture(s, Attempts(pat, s)[p].value)
      && Search(pat, s) == Some(Captured(s, Attempts(pat, s)[p].value))
  {
    AttemptAt(pat, s, p);
    FirstHitAt(Attempts(pat, s), 0, p);
  }

  /** The search reports the capture of the leftmost position with a match. */
  lemma SearchLeftmost(pat: Pattern, s: string, p: nat)
    requires p <= |s| && MatchAt(pat, s, p).Some?
    requires forall q :: 0 <= q < p ==> MatchAt(pat, s, q).None?
    ensures Search(pat, s) == Some(Captured(s, MatchAt(pat, s, p).value))
  {
    AttemptAt(pat, s, p);
    NoneBefore(pat, s, p);
    FoundFirst(pat, s, p);
  }

  /** No match before `p`, told entry by entry. */
  lemma NoneBefore(pat: Pattern, s: string, p: nat)
    requires p <= |s| + 1
    requires forall q :: 0 <= q < p ==> MatchAt(pat, s, q).None?
    ensures forall q :: 0 <= q < p ==> Attempts(pat, s)[q].None?
  {
    forall q | 0 <= q < p
      ensures Attempts(pat, s)[q].None?
    {
      AttemptAt(pat, s, q);
    }
  }
}

=== FILE: phone.dfy ===
/**
 `extractPhoneAnywhere`: the leftmost text of North-American phone shape, an
 optional `(`, three digits, an optional `)`, separators, three digits,
 separators and four digits, where a separator is white space, `-` or `.`.
 The regex's quantifiers are greedy; because separators are never digits and a
 parenthesis is neither, a match at a given start has only one possible extent,
 which `MatchAt` finds by scanning.
 */
module Phone {
  import opened Wrappers
  import opened JsText

  /** `[\s\-.]`. */
  predicate IsSep(c: char) {
    IsWs(c) || c == '-' || c == '.'
  }

  /** Every character in `[i, j)` is a separator. */
  predicate SepsBetween(s: string, i: nat, j: nat) {
    i <= j <= |s| && forall k :: i <= k < j ==> IsSep(s[k])
  }

  /** Where the parts of one phone match lie: the first digit group starts at
      `first`, separators start at `seps1`, the second digit group at `second`
      and the last group at `last`. */
  datatype Shape = Shape(first: nat, seps1: nat, second: nat, last: nat) {
    function End(): nat { last + 4 }
  }

  /** The regex `\(?\d{3}\)?[\s\-.]*\d{3}[\s\-.]*\d{4}` matches `s` from `p` with the parts at `m`. */
  predicate Parses(s: string, p: nat, m: Shape) {
    && (m.first == p || (m.first == p + 1 && p < |s| && s[p] == '('))
    && DigitsAt(s, m.first, 3)
    && (m.seps1 == m.first + 3 || (m.seps1 == m.first + 4 && m.first + 3 < |s| && s[m.first + 3] == ')'))
    && SepsBetween(s, m.seps1, m.second)
    && DigitsAt(s, m.second, 3)
    && SepsBetween(s, m.second + 3, m.last)
    && DigitsAt(s, m.last, 4)
  }

  /** End of the longest run of separators from `i`. */
  function SkipSeps(s: string, i: nat): (j: nat)
    requires i <= |s|
    ensures SepsBetween(s, i, j)
    ensures j < |s| ==> !IsSep(s[j])
    decreases |s| - i
  {
    if i < |s| && IsSep(s[i]) then SkipSeps(s, i + 1) else i
  }

  /** The match starting exactly at `p`, if any. */
  function MatchAt(s: string, p: nat): (r: Option<Shape>)
    requires p <= |s|
    ensures r.Some? ==> Parses(s, p, r.value)
  {
    var a := if p < |s| && s[p] == '(' then p + 1 else p;
    if !DigitsAt(s, a, 3) then None
    else
      var b := if a + 3 < |s| && s[a + 3] == ')' then a + 4 else a + 3;
      var c := SkipSeps(s, b);
      if !DigitsAt(s, c, 3) then None
      else
        var d := SkipSeps(s, c + 3);
        if !DigitsAt(s, d, 4) then None else Some(Shape(a, b, c, d))
  }

  lemma SkipSepsExact(s: string, i: nat, j: nat)
    requires SepsBetween(s, i, j) && j < |s| && !IsSep(s[j])
    ensures SkipSeps(s, i) == j
    decreases j - i
  {
    if i < j {
      SkipSepsExact(s, i + 1, j);
    }
  }

  /** A match at `p` has exactly one shape, and the scanner finds it. */
  lemma MatchAtComplete(s: string, p: nat, m: Shape)
    requires p <= |s| && Parses(s, p, m)
    ensures MatchAt(s, p) == Some(m)
  {
    OptionalOpen(s, p, m.first);
    OptionalClose(s, m.first, m.seps1, m.second);
    SkipSepsTo(s, m.seps1, m.second);
    SkipSepsTo(s, m.second + 3, m.last);
  }

  /** The optional `(` is taken exactly when it is there, since a digit follows. */
  lemma OptionalOpen(s: string, p: nat, a: nat)
    requires a == p || (a == p + 1 && p < |s| && s[p] == '(')
    requires DigitsAt(s, a, 3)
    ensures (if p < |s| && s[p] == '(' then p + 1 else p) == a
  {
    assert IsDigit(s[a]);
  }

  /** The optional `)` is taken exactly when it is there, since a separator or
      a digit follows. */
  lemma OptionalClose(s: string, a: nat, b: nat, c: nat)
    requires b == a + 3 || (b == a + 4 && a + 3 < |s| && s[a + 3] == ')')
    requires SepsBetween(s, b, c) && DigitsAt(s, c, 3)
    ensures (if a + 3 < |s| && s[a + 3] == ')' then a + 4 else a + 3) == b
  {
    if b == a + 3 {
      if b < c {
        assert IsSep(s[b]);
      } else {
        assert IsDigit(s[c]);
      }
    }
  }

  /** Separators up to a digit: the scan stops at the digit. */
  lemma SkipSepsTo(s: string, i: nat, j: nat)
    requires SepsBetween(s, i, j) && j < |s| && IsDigit(s[j])
    ensures SkipSeps(s, i) == j
  {
    SkipSepsExact(s, i, j);
  }

  /** The leftmost match at or after `p`, with its start. */
  function FindFrom(s: string, p: nat): (r: Option<(nat, Shape)>)
    requires p <= |s|
    ensures r.Some? ==> p <= r.value.0 <= |s| && Parses(s, r.value.0, r.value.1)
    ensures r.Some? ==> forall q, m :: p <= q < r.value.0 ==> !Parses(s, q, m)
    ensures r.None? ==> forall q, m :: p <= q <= |s| ==> !Parses(s, q, m)
    decreases |s| - p
  {
    var here := MatchAt(s, p);
    if here.Some? then Some((p, here.value))
    else
      NoParseHere(s, p);
      if p == |s| then None else FindFrom(s, p + 1)
  }

  /** Where the scanner finds no match, nothing parses. */
  lemma NoParseHere(s: string, p: nat)
    requires p <= |s| && MatchAt(s, p).None?
    ensures forall m :: !Parses(s, p, m)
  {
    forall m | Parses(s, p, m) ensures false {
      MatchAtComplete(s, p, m);
    }
  }

  /** `extractPhoneAnywhere(html)`: empty exactly when nothing in `html` has the
      phone shape; otherwise the leftmost match, which holds ten digits and ends
      with one. */
  function ExtractPhoneAnywhere(html: string): (r: string)
    ensures r == "" <==> forall p: nat, m: Shape :: p <= |html| ==> !Parses(html, p, m)
    ensures r != "" ==>
      exists p: nat, m: Shape :: p <= |html| && Parses(html, p, m) && r == html[p..m.End()]
        && forall q: nat, m': Shape :: q < p ==> !Parses(html, q, m')
    ensures r != "" ==> DigitCount(r) == 10 && IsDigit(r[|r| - 1])
  {
    match FindFrom(html, 0)
    case None =>
      assert forall p: nat, m :: p <= |html| ==> !Parses(html, p, m);
      ""
    case Some((p, m)) =>
      MatchDigits(html, p, m);
      var r := html[p..m.End()];
      assert p <= |html| && Parses(html, p, m) && r == html[p..m.End()]
        && forall q: nat, m': Shape :: q < p ==> !Parses(html, q, m');
      r
  }

  /** Counting digits over adjacent ranges adds up. */
  lemma DigitCountSplit(s: string, i: nat, j: nat, k: nat)
    requires i <= j <= k <= |s|
    ensures DigitCount(s[i..k]) == DigitCount(s[i..j]) + DigitCount(s[j..k])
  {
    assert s[i..k] == s[i..j] + s[j..k];
    DigitCountAppend(s[i..j], s[j..k]);
  }

  lemma NoDigitsIn(s: string, i: nat, j: nat)
    requires i <= j <= |s|
    requires forall k :: i <= k < j ==> !IsDigit(s[k])
    ensures DigitCount(s[i..j]) == 0
  {
    DigitCountNone(s[i..j]);
  }

  lemma AllDigitsIn(s: string, i: nat, n: nat)
    requires DigitsAt(s, i, n)
    ensures DigitCount(s[i..i + n]) == n
  {
    DigitCountAll(s[i..i + n]);
  }

  /** A phone match holds exactly ten digits, and its last character is one of them. */
  lemma MatchDigits(s: string, p: nat, m: Shape)
    requires p <= |s| && Parses(s, p, m)
    ensures DigitCount(s[p..m.End()]) == 10
    ensures IsDigit(s[m.End() - 1])
  {
    TailDigits(s, m.seps1, m.second, m.last);
    HeadDigits(s, p, m.first, m.seps1, m.End());
  }

  /** Separators, three digits, separators, four digits: seven digits in all. */
  lemma TailDigits(s: string, b: nat, c: nat, d: nat)
    requires SepsBetween(s, b, c) && DigitsAt(s, c, 3)
    requires SepsBetween(s, c + 3, d) && DigitsAt(s, d, 4)
    ensures DigitCount(s[b..d + 4]) == 7
  {
    SepsThenDigits(s, b, c, 3);
    SepsThenDigits(s, c + 3, d, 4);
    DigitCountSplit(s, b, c + 3, d + 4);
  }

  /** Separators followed by `n` digits hold `n` digits. */
  lemma SepsThenDigits(s: string, b: nat, c: nat, n: nat)
    requires SepsBetween(s, b, c) && DigitsAt(s, c, n)
    ensures DigitCount(s[b..c + n]) == n
  {
    DigitCountSplit(s, b, c, c + n);
    NoDigitsIn(s, b, c);
    AllDigitsIn(s, c, n);
  }

  /** An optional `(`, three digits and an optional `)` add three digits. */
  lemma HeadDigits(s: string, p: nat, a: nat, b: nat, e: nat)
    requires a == p || (a == p + 1 && p < |s| && s[p] == '(')
    requires DigitsAt(s, a, 3)
    requires b == a + 3 || (b == a + 4 && a + 3 < |s| && s[a + 3] == ')')
    requires b <= e <= |s| && DigitCount(s[b..e]) == 7
    ensures DigitCount(s[p..e]) == 10
  {
    DigitCountSplit(s, a + 3, b, e);
    NoDigitsIn(s, a + 3, b);
    DigitCountSplit(s, a, a + 3, e);
    AllDigitsIn(s, a, 3);
    DigitCountSplit(s, p, a, e);
    NoDigitsIn(s, p, a);
  }

  /** A bracketed area code with a space and a dash is returned as written. */
  lemma BracketedNumber()
    ensures ExtractPhoneAnywhere("(555) 123-4567") == "(555) 123-4567"
  {
    BracketedExample("(555) 123-4567");
  }

  lemma BracketedExample(s: string)
    requires s == "(555) 123-4567"
    ensures ExtractPhoneAnywhere(s) == s
  {
    assert SkipSeps(s, 5) == 6;
    assert SkipSeps(s, 9) == 10;
    assert MatchAt(s, 0) == Some(Shape(1, 5, 6, 10));
    assert s[0..14] == s;
  }
}

=== FILE: snapshot_url.dfy ===
/**
 `mcToSnapshotUrl` turns an MC identifier into the carrier
 snapshot query of the public registry by dropping every white-space character,
 percent-encoding the rest and appending it to a fixed query string.
 */
module SnapshotUrl {
  import opened Wrappers
  import opened JsText
  import UriComponent

  /** The fixed host, path and query parameters in front of the identifier. */
  const Prefix: string :=
    "https://safer.fmcsa.dot.gov/query.asp?searchtype=ANY&query_type=queryCarrierSnapshot&query_param=MC_MX&query_string="

  /** `String(mc || '')`: an absent identifier (`null`, `undefined`) reads as the empty string. */
  function Identifier(mc: Option<string>): string {
    match mc
    case None => ""
    case Some(s) => s
  }

  /** `mcToSnapshotUrl(mc)`. The query value is URL-safe and decodes back to the
      identifier without its white space; an absent identifier gives the bare prefix. */
  function McToSnapshotUrl(mc: Option<string>): (url: string)
    ensures |Prefix| <= |url| && url[..|Prefix|] == Prefix
    ensures UriComponent.UriSafe(url[|Prefix|..]) && NoWs(url[|Prefix|..])
    ensures UriComponent.Decode(url[|Prefix|..]) == Some(StripWs(Identifier(mc)))
    ensures |Identifier(mc)| == 0 ==> url == Prefix
  {
    var m := StripWs(Identifier(mc));
    var q := UriComponent.Encode(m);
    UriComponent.EncodeHasNoWs(m);
    UriComponent.DecodeEncode(m);
    assert (Prefix + q)[|Prefix|..] == q;
    Prefix + q
  }

  /** Stripping white space from the identifier first does not change the URL. */
  lemma UrlIgnoresWhitespace(mc: string)
    ensures McToSnapshotUrl(Some(StripWs(mc))) == McToSnapshotUrl(Some(mc))
  {
    StripWsIdempotent(mc);
  }

  /** An identifier whose characters other than white space are all unreserved,
      such as `MC 123456`, appears in the URL as it is, minus its white space. */
  lemma PlainIdentifierUrl(mc: string)
    requires forall i :: 0 <= i < |mc| && !IsWs(mc[i]) ==> UriComponent.IsUnreserved(mc[i])
    ensures McToSnapshotUrl(Some(mc)) == Prefix + StripWs(mc)
  {
    EncodeStripped(mc);
    UrlOf(mc);
  }

  lemma EncodeStripped(mc: string)
    requires forall i :: 0 <= i < |mc| && !IsWs(mc[i]) ==> UriComponent.IsUnreserved(mc[i])
    ensures UriComponent.Encode(StripWs(mc)) == StripWs(mc)
  {
    StrippedUnreserved(mc);
    UriComponent.EncodeUnreserved(StripWs(mc));
  }

  /** The URL of a present identifier, spelled out. */
  lemma UrlOf(mc: string)
    ensures McToSnapshotUrl(Some(mc)) == Prefix + UriComponent.Encode(StripWs(mc))
  {
  }

  lemma StrippedUnreserved(mc: string)
    requires forall i :: 0 <= i < |mc| && !IsWs(mc[i]) ==> UriComponent.IsUnreserved(mc[i])
    ensures forall k :: 0 <= k < |StripWs(mc)| ==> UriComponent.IsUnreserved(StripWs(mc)[k])
  {
    var m := StripWs(mc);
    StripWsFrom(mc);
    forall k | 0 <= k < |m|
      ensures UriComponent.IsUnreserved(m[k])
    {
      var i :| 0 <= i < |mc| && mc[i] == m[k];
    }
  }

  /** Two identifiers give the same URL exactly when they agree once white space is dropped. */
  lemma UrlDeterminesIdentifier(a: string, b: string)
    ensures McToSnapshotUrl(Some(a)) == McToSnapshotUrl(Some(b)) <==> StripWs(a) == StripWs(b)
  {
    var ua := McToSnapshotUrl(Some(a));
    var ub := McToSnapshotUrl(Some(b));
    if ua == ub {
      assert ua[|Prefix|..] == ub[|Prefix|..];
    }
  }
}

=== FILE: uri_component.dfy ===
/**
 JavaScript's `encodeURIComponent` over strings of Unicode scalar values: a
 character of the unreserved set (section 2.3 of RFC 3986 plus `!*'()`) is kept,
 every other character is written as the `%XX` escapes of its UTF-8 bytes with
 upper-case hexadecimal digits. `Decode` is the matching `decodeURIComponent`
 direction, used here as the partner that recovers the input.
 */
module UriComponent {
  import opened Wrappers
  import opened JsText

  type Byte = b: int | 0 <= b < 256

  /** Characters `encodeURIComponent` leaves unescaped. */
  predicate IsUnreserved(c: char) {
    || ('A' <= c <= 'Z') || ('a' <= c <= 'z') || ('0' <= c <= '9')
    || c == '-' || c == '_' || c == '.' || c == '!' || c == '~'
    || c == '*' || c == '\'' || c == '(' || c == ')'
  }

  /** The UTF-8 encoding of one scalar value: a lead byte with the top bits of
      the code point, then one continuation byte for each further six bits. */
  function Utf8(c: char): (bs: seq<Byte>)
    ensures |bs| == UtfLength(c)
  {
    var n := c as int;
    var q1 := n / 64;
    var q2 := q1 / 64;
    if n < 0x80 then [n]
    else if n < 0x800 then [0xC0 + q1, 0x80 + n % 64]
    else if n < 0x10000 then [0xE0 + q2, 0x80 + q1 % 64, 0x80 + n % 64]
    else [0xF0 + q2 / 64, 0x80 + q2 % 64, 0x80 + q1 % 64, 0x80 + n % 64]
  }

  /** The number of bytes in the shortest UTF-8 form of `c`, by code-point range. */
  function UtfLength(c: char): nat {
    if c as int < 0x80 then 1
    else if c as int < 0x800 then 2
    else if c as int < 0x10000 then 3
    else 4
  }

  predicate IsUpperHex(c: char) {
    ('0' <= c <= '9') || ('A' <= c <= 'F')
  }

  function HexDigit(d: int): (c: char)
    requires 0 <= d < 16
    ensures IsUnreserved(c) && IsUpperHex(c)
  {
    if d < 10 then ('0' as int + d) as char else ('A' as int + d - 10) as char
  }

  /** `%XX` for one byte. */
  function PercentByte(b: Byte): string {
    ['%', HexDigit(b / 16), HexDigit(b % 16)]
  }

  function PercentBytes(bs: seq<Byte>): (r: string)
    ensures |r| == 3 * |bs|
  {
    if bs == [] then [] else PercentByte(bs[0]) + PercentBytes(bs[1..])
  }

  function EncodeChar(c: char): string {
    if IsUnreserved(c) then [c] else PercentBytes(Utf8(c))
  }

  /** Every character of an encoding is unreserved or the escape mark `%`. */
  predicate UriSafe(s: string) {
    forall i :: 0 <= i < |s| ==> IsUnreserved(s[i]) || s[i] == '%'
  }

  /** `encodeURIComponent(s)`. */
  function Encode(s: string): (r: string)
    ensures UriSafe(r)
    ensures |s| <= |r| <= 12 * |s|
  {
    if s == [] then []
    else
      var head := EncodeChar(s[0]);
      assert UriSafe(head) by {
        if !IsUnreserved(s[0]) {
          PercentBytesSafe(Utf8(s[0]));
        }
      }
      head + Encode(s[1..])
  }

  lemma PercentBytesSafe(bs: seq<Byte>)
    ensures UriSafe(PercentBytes(bs))
  {
    if bs != [] {
      PercentBytesSafe(bs[1..]);
    }
  }

  /** Every `%` is followed by two upper-case hexadecimal digits. */
  predicate UpperEscapes(r: string) {
    forall i :: 0 <= i < |r| && r[i] == '%' ==> i + 2 < |r| && IsUpperHex(r[i + 1]) && IsUpperHex(r[i + 2])
  }

  /** Escapes are written with upper-case digits, `%2F` and never `%2f`. */
  lemma {:induction false} EncodeUpper(s: string)
    ensures UpperEscapes(Encode(s))
    decreases |s|
  {
    if s != [] {
      EncodeUpper(s[1..]);
      CharUpper(s[0]);
      UpperConcat(EncodeChar(s[0]), Encode(s[1..]));
    }
  }

  lemma CharUpper(c: char)
    ensures UpperEscapes(EncodeChar(c))
  {
    if !IsUnreserved(c) {
      PercentBytesUpper(Utf8(c));
    }
  }

  lemma {:induction false} PercentBytesUpper(bs: seq<Byte>)
    ensures UpperEscapes(PercentBytes(bs))
    decreases |bs|
  {
    if bs != [] {
      PercentBytesUpper(bs[1..]);
      UpperConcat(PercentByte(bs[0]), PercentBytes(bs[1..]));
    }
  }

  lemma UpperConcat(a: string, b: string)
    requires UpperEscapes(a) && UpperEscapes(b)
    requires |a| >= 3 ==> a[|a| - 1] != '%' && a[|a| - 2] != '%'
    ensures UpperEscapes(a + b)
  {
  }

  /** An escaped character takes the shortest UTF-8 form: three characters per
      byte, one to four bytes by code-point range, so no overlong form appears. */
  lemma EscapeLength(c: char)
    requires !IsUnreserved(c)
    ensures |Encode([c])| == 3 * UtfLength(c)
  {
    assert [c][1..] == [];
  }

  /** An encoding contains no white space, so it can stand in a query string as it is. */
  lemma EncodeHasNoWs(s: string)
    ensures NoWs(Encode(s))
  {
    var r := Encode(s);
    forall i | 0 <= i < |r|
      ensures !IsWs(r[i])
    {
      assert IsUnreserved(r[i]) || r[i] == '%';
    }
  }

  // ---- decoding ----

  function HexValue(c: char): Option<int> {
    if '0' <= c <= '9' then Some(c as int - '0' as int)
    else if 'A' <= c <= 'F' then Some(c as int - 'A' as int + 10)
    else if 'a' <= c <= 'f' then Some(c as int - 'a' as int + 10)
    else None
  }

  /** The byte escaped as `%XX` at position `i` of `s`, if there is one. */
  function ByteAt(s: string, i: nat): (r: Option<Byte>)
  {
    if i + 3 <= |s| && s[i] == '%' then
      match (HexValue(s[i + 1]), HexValue(s[i + 2]))
      case (Some(h), Some(l)) => Some(16 * h + l)
      case _ => None
    else None
  }

  /** The payload of a UTF-8 continuation byte escaped at position `i`. */
  function ContinuationAt(s: string, i: nat): (r: Option<int>)
    ensures r.Some? ==> 0 <= r.value < 64
  {
    match ByteAt(s, i)
    case Some(b) => if 0x80 <= b < 0xC0 then Some(b - 0x80) else None
    case None => None
  }

  /** A decoded code point, if it is a Unicode scalar value, with the escape length. */
  function Scalar(n: int, len: nat): Option<(char, nat)> {
    if 0 <= n < 0xD800 || 0xE000 <= n < 0x11_0000 then Some((n as char, len)) else None
  }

  /** Decodes the escaped UTF-8 sequence of one character at the start of `s`;
      returns the character and the number of characters of `s` it took. */
  function DecodeEscaped(s: string): (r: Option<(char, nat)>)
    ensures r.Some? ==> 3 <= r.value.1 <= |s|
  {
    match ByteAt(s, 0)
    case None => None
    case Some(b0) =>
      if b0 < 0x80 then Scalar(b0, 3)
      else if 0xC0 <= b0 < 0xE0 then
        var x1 := ContinuationAt(s, 3);
        if x1.None? then None
        else Scalar((b0 - 0xC0) * 64 + x1.value, 6)
      else if 0xE0 <= b0 < 0xF0 then
        var x1 := ContinuationAt(s, 3);
        var x2 := ContinuationAt(s, 6);
        if x1.None? || x2.None? then None
        else Scalar((b0 - 0xE0) * 4096 + x1.value * 64 + x2.value, 9)
      else if 0xF0 <= b0 < 0xF8 then
        var x1 := ContinuationAt(s, 3);
        var x2 := ContinuationAt(s, 6);
        var x3 := ContinuationAt(s, 9);
        if x1.None? || x2.None? || x3.None? then None
        else Scalar((b0 - 0xF0) * 262144 + x1.value * 4096 + x2.value * 64 + x3.value, 12)
      else None
  }

  /** `decodeURIComponent(s)`; `None` where it would throw a `URIError`. */
  function Decode(s: string): Option<string>
    decreases |s|
  {
    if s == [] then Some([])
    else if s[0] != '%' then
      match Decode(s[1..])
      case Some(t) => Some([s[0]] + t)
      case None => None
    else
      match DecodeEscaped(s)
      case None => None
      case Some((c, k)) =>
        match Decode(s[k..])
        case Some(t) => Some([c] + t)
        case None => None
  }

  // ---- the round trip ----

  lemma HexRoundTrip(d: int)
    requires 0 <= d < 16
    ensures HexValue(HexDigit(d)) == Some(d)
  {
  }

  lemma ByteAtPercent(bs: seq<Byte>, t: string, k: nat)
    requires k < |bs|
    ensures ByteAt(PercentBytes(bs) + t, 3 * k) == Some(bs[k])
    decreases k
  {
    assert PercentBytes(bs) + t == PercentByte(bs[0]) + (PercentBytes(bs[1..]) + t);
    if k == 0 {
      ByteAtHead(bs[0], PercentBytes(bs[1..]) + t);
    } else {
      ByteAtPercent(bs[1..], t, k - 1);
      ByteAtShift(PercentByte(bs[0]), PercentBytes(bs[1..]) + t, 3 * (k - 1));
    }
  }

  /** An escape at the front decodes to its byte. */
  lemma ByteAtHead(b: Byte, t: string)
    ensures ByteAt(PercentByte(b) + t, 0) == Some(b)
  {
    HexRoundTrip(b / 16);
    HexRoundTrip(b % 16);
    var s := PercentByte(b) + t;
    assert s[0] == '%' && s[1] == HexDigit(b / 16) && s[2] == HexDigit(b % 16);
  }

  lemma ByteAtShift(p: string, s: string, i: nat)
    ensures ByteAt(p + s, |p| + i) == ByteAt(s, i)
  {
    if i + 3 <= |s| {
      assert (p + s)[|p| + i] == s[i];
      assert (p + s)[|p| + i + 1] == s[i + 1];
      assert (p + s)[|p| + i + 2] == s[i + 2];
    }
  }

  lemma DecodeEscapedUtf8(c: char, t: string)
    requires !IsUnreserved(c)
    ensures DecodeEscaped(PercentBytes(Utf8(c)) + t) == Some((c, 3 * |Utf8(c)|))
  {
    var n := c as int;
    if n < 0x80 {
      DecodeEscaped1(c, t);
    } else if n < 0x800 {
      DecodeEscaped2(c, t);
    } else if n < 0x10000 {
      DecodeEscaped3(c, t);
    } else {
      DecodeEscaped4(c, t);
    }
  }

  lemma DecodeEscaped1(c: char, t: string)
    requires c as int < 0x80
    ensures DecodeEscaped(PercentBytes(Utf8(c)) + t) == Some((c, 3 * |Utf8(c)|))
  {
    ByteAtPercent(Utf8(c), t, 0);
  }

  lemma DecodeEscaped2(c: char, t: string)
    requires 0x80 <= c as int < 0x800
    ensures DecodeEscaped(PercentBytes(Utf8(c)) + t) == Some((c, 3 * |Utf8(c)|))
  {
    var a, x1 := Utf8Two(c);
    var bs := Utf8(c);
    var s := PercentBytes(bs) + t;
    ByteAtPercent(bs, t, 0);
    ContinuationOf(bs, t, 1);
    TwoBytes(s, 0xC0 + a, x1);
    ScalarOf(c, 6);
  }

  lemma DecodeEscaped3(c: char, t: string)
    requires 0x800 <= c as int < 0x10000
    ensures DecodeEscaped(PercentBytes(Utf8(c)) + t) == Some((c, 3 * |Utf8(c)|))
  {
    var a, x1, x2 := Utf8Three(c);
    var bs := Utf8(c);
    var s := PercentBytes(bs) + t;
    ByteAtPercent(bs, t, 0);
    ContinuationOf(bs, t, 1);
    ContinuationOf(bs, t, 2);
    ThreeBytes(s, 0xE0 + a, x1, x2);
    ScalarOf(c, 9);
  }

  lemma DecodeEscaped4(c: char, t: string)
    requires 0x10000 <= c as int
    ensures DecodeEscaped(PercentBytes(Utf8(c)) + t) == Some((c, 3 * |Utf8(c)|))
  {
    var a, x1, x2, x3 := Utf8Four(c);
    DecodeFour(Utf8(c), t, c);
  }

  /** Four escaped bytes of the UTF-8 shape decode to the code point they spell. */
  lemma DecodeFour(bs: seq<Byte>, t: string, c: char)
    requires |bs| == 4 && 0xF0 <= bs[0] < 0xF8
    requires 0x80 <= bs[1] < 0xC0 && 0x80 <= bs[2] < 0xC0 && 0x80 <= bs[3] < 0xC0
    requires (bs[0] as int - 0xF0) * 262144 + (bs[1] as int - 0x80) * 4096
      + (bs[2] as int - 0x80) * 64 + (bs[3] as int - 0x80) == c as int
    ensures DecodeEscaped(PercentBytes(bs) + t) == Some((c, 12))
  {
    var s := PercentBytes(bs) + t;
    ByteAtPercent(bs, t, 0);
    ContinuationOf(bs, t, 1);
    ContinuationOf(bs, t, 2);
    ContinuationOf(bs, t, 3);
    FourBytes(s, bs[0], bs[1] as int - 0x80, bs[2] as int - 0x80, bs[3] as int - 0x80);
    ScalarOf(c, 12);
  }

  /** The two bytes of a code point below `0x800`, as its base-64 digits. */
  lemma Utf8Two(c: char) returns (a: int, x1: int)
    requires 0x80 <= c as int < 0x800
    ensures 0 <= a < 32 && 0 <= x1 < 64 && a * 64 + x1 == c as int
    ensures Utf8(c) == [0xC0 + a, 0x80 + x1]
  {
    var n := c as int;
    a, x1 := n / 64, n % 64;
  }

  /** The three bytes of a code point below `0x10000`, as its base-64 digits. */
  lemma Utf8Three(c: char) returns (a: int, x1: int, x2: int)
    requires 0x800 <= c as int < 0x10000
    ensures 0 <= a < 16 && 0 <= x1 < 64 && 0 <= x2 < 64 && a * 4096 + x1 * 64 + x2 == c as int
    ensures Utf8(c) == [0xE0 + a, 0x80 + x1, 0x80 + x2]
  {
    var n := c as int;
    var q1 := n / 64;
    a, x1, x2 := q1 / 64, q1 % 64, n % 64;
  }

  /** The four bytes of a supplementary code point, as its base-64 digits. */
  lemma Utf8Four(c: char) returns (a: int, x1: int, x2: int, x3: int)
    requires 0x10000 <= c as int
    ensures 0 <= a < 8 && 0 <= x1 < 64 && 0 <= x2 < 64 && 0 <= x3 < 64
    ensures a * 262144 + x1 * 4096 + x2 * 64 + x3 == c as int
    ensures Utf8(c) == [0xF0 + a, 0x80 + x1, 0x80 + x2, 0x80 + x3]
  {
    var n := c as int;
    var q1 := n / 64;
    var q2 := q1 / 64;
    a, x1, x2, x3 := q2 / 64, q2 % 64, q1 % 64, n % 64;
  }

  /** A character's own code point is a scalar value. */
  lemma ScalarOf(c: char, len: nat)
    ensures Scalar(c as int, len) == Some((c, len))
  {
  }

  /** An escaped continuation byte gives its six payload bits. */
  lemma ContinuationOf(bs: seq<Byte>, t: string, k: nat)
    requires k < |bs| && 0x80 <= bs[k] < 0xC0
    ensures ContinuationAt(PercentBytes(bs) + t, 3 * k) == Some(bs[k] - 0x80)
  {
    ByteAtPercent(bs, t, k);
  }

  /** A two-byte sequence decodes as its lead bits and one payload. */
  lemma TwoBytes(s: string, b0: Byte, x1: int)
    requires ByteAt(s, 0) == Some(b0) && 0xC0 <= b0 < 0xE0
    requires ContinuationAt(s, 3) == Some(x1)
    ensures DecodeEscaped(s) == Scalar((b0 - 0xC0) * 64 + x1, 6)
  {
  }

  /** A three-byte sequence decodes as its lead bits and two payloads. */
  lemma ThreeBytes(s: string, b0: Byte, x1: int, x2: int)
    requires ByteAt(s, 0) == Some(b0) && 0xE0 <= b0 < 0xF0
    requires ContinuationAt(s, 3) == Some(x1)
    requires ContinuationAt(s, 6) == Some(x2)
    ensures DecodeEscaped(s) == Scalar((b0 - 0xE0) * 4096 + x1 * 64 + x2, 9)
  {
  }

  /** A four-byte sequence decodes as its lead bits and three payloads. */
  lemma FourBytes(s: string, b0: Byte, x1: int, x2: int, x3: int)
    requires ByteAt(s, 0) == Some(b0) && 0xF0 <= b0 < 0xF8
    requires ContinuationAt(s, 3) == Some(x1)
    requires ContinuationAt(s, 6) == Some(x2)
    requires ContinuationAt(s, 9) == Some(x3)
    ensures DecodeEscaped(s) == Scalar((b0 - 0xF0) * 262144 + x1 * 4096 + x2 * 64 + x3, 12)
  {
  }

  /** `decodeURIComponent(encodeURIComponent(s)) == s`: the encoding loses nothing. */
  lemma {:induction false} DecodeEncode(s: string)
    ensures Decode(Encode(s)) == Some(s)
  {
    if s != [] {
      var c := s[0];
      var rest := Encode(s[1..]);
      DecodeEncode(s[1..]);
      assert Encode(s) == EncodeChar(c) + rest;
      if IsUnreserved(c) {
        assert c != '%';
        assert Encode(s)[1..] == rest;
      } else {
        var e := PercentBytes(Utf8(c));
        DecodeEscapedUtf8(c, rest);
        assert (e + rest)[0] == '%';
        assert (e + rest)[|e|..] == rest;
      }
      assert [c] + s[1..] == s;
    }
  }

  /** Unreserved characters are kept as they are: a string made only of them is its own encoding. */
  lemma {:induction false} EncodeUnreserved(s: string)
    requires forall i :: 0 <= i < |s| ==> IsUnreserved(s[i])
    ensures Encode(s) == s
  {
    if s != [] {
      EncodeUnreserved(s[1..]);
      assert [s[0]] + s[1..] == s;
    }
  }

  /** Each character is encoded on its own, so an unreserved character keeps its
      place and spelling inside any identifier. */
  lemma {:induction false} EncodeAppend(a: string, b: string)
    ensures Encode(a + b) == Encode(a) + Encode(b)
    decreases |a|
  {
    if a == [] {
      assert a + b == b;
    } else {
      assert (a + b)[1..] == a[1..] + b;
      EncodeAppend(a[1..], b);
    }
  }

  /** Distinct strings have distinct encodings. */
  lemma EncodeInjective(a: string, b: string)
    ensures Encode(a) == Encode(b) <==> a == b
  {
    if Encode(a) == Encode(b) {
      DecodeEncode(a);
      DecodeEncode(b);
    }
  }
}

=== FILE: wrappers.dfy ===
/** Failure-carrying values shared by the modules of the extractor model. */
module Wrappers {

  /** An optional value: JavaScript's `null`/`undefined` or a regex that did not match. */
  datatype Option<+T> = None | Some(value: T)

  /** The value of a computation that either returns or throws. */
  datatype Result<+R, +E> = Success(value: R) | Failure(error: E)
}
